=== FILE: README.md ===
# Kosha Python SDK: bulk reconciliation, modelled in Dafny

This project models the bulk-reconciliation core of the Kosha Python SDK:

- how `BatchProcessor` clamps its chunk size;
- how `process_batch` turns one HTTP reply into a `BatchResult` or an exception;
- how `process_all` cuts the input into chunks, collects the results, records failed
  batches, optionally checks audit hashes, and reports progress;
- how `AuditHashValidator` recomputes an audit hash over the key-sorted JSON
  serialisation of a transaction plus its prediction;
- how `KoshaClient.reconcile_batch` hands its settings to a fresh processor;
- how `generate_report` in the CSV-import example summarises a run.

Modules, in dependency order:

| module | file | what it holds |
|---|---|---|
| `Basics` | basics.dfy | `Option`/`Result`, `str()` of integers, four-digit hex |
| `JsonValue` | json_value.dfy | decoded JSON values; dicts as insertion-ordered association lists; `dict.get`, `{**d, k: v}`, truthiness, equality up to the key order of dicts |
| `Canonical` | canonical.dfy | `json.dumps(v, sort_keys=True)`: Python's string order, sorting members by key, `ensure_ascii` escaping |
| `Audit` | audit.dfy | `compute_audit_hash`, `validate_result` |
| `Batch` | batch.dfy | `process_batch` as a function of the round trip it observed |
| `Processor` | processor.dfy | the clamp, the chunking, one loop iteration, `process_all` as a function and as a loop method |
| `ProcessorProps` | processor_props.dfy | what a whole `process_all` run delivers, fails, warns about and reports |
| `Client` | client.dfy | `reconcile_batch` |
| `Report` | report.dfy | `generate_report` |

Everything the code reaches outside itself is a parameter:

- `Exchange` is one HTTP round trip: the reply or the transport exception, the two ISO-8601
  timestamps, and the measured duration.
- `Transport` maps each chunk to its `Exchange`.
- `Primitives` supplies SHA-256 over the UTF-8 text and Python's `repr` of a float.
- `parse` is Python's `float()` of a numeric string.
- `totalTime` is the wall-clock time of `process_all`.

The progress callback is modelled as the list of `(current, total)` pairs it would receive. The
printed audit-hash warnings are modelled as a list of warnings. Both lists are ordinary fields of
the run's result, so contracts about them are stated on the values returned.

Every Python exception in the core is a value of an error datatype, so each raising path has its
own case. In these places the code behaves as follows:

- `process_batch` pairs requests and responses with `zip`, so a short response list yields fewer
  results rather than an error.
- The progress callback fires only after a chunk succeeds, not after every attempt.
- `process_all` does not reject a chunk size ≤ 0:
  - 0 makes `range()` raise `ValueError` (`RunError.ZeroBatchSize`);
  - a negative size sends no chunk and reports every transaction as failed.
- `reconcile_batch` passes its own unclamped `batch_size`. The clamp to 5000 happens in
  `BatchProcessor`.
- A list or dict as a `match_type` makes `generate_report` raise `TypeError`. A non-numeric
  `confidence_score` string makes it raise `ValueError`. The histogram loop runs first, so a bad
  match type is reported before a bad score. An integer score too large for a double
  (magnitude at least 2^1024 - 2^970) makes `float()` raise `OverflowError`.

## Model

| member | source | states |
|---|---|---|
| Basics.NatToStringRoundTrip | sdks/python/kosha_client.py:182 | the decimal text `str(n)` used in the fallback id `txn_{batch_id}_{i}` reads back as `n` |
| Basics.IntToString | sdks/python/kosha_client.py:182 | `str(i)` of an int is non-empty and starts with '-' exactly when `i` is negative |
| Basics.IntToStringRoundTrip | sdks/python/kosha_client.py:182 | reading `str(i)` back as an optional '-' and decimal digits gives `i`, so distinct batch ids give distinct texts |
| JsonValue.LookupFound | sdks/python/kosha_client.py:82 | `k in d` holds exactly when some entry carries the key |
| JsonValue.Override | sdks/python/kosha_client.py:87-92 | after `{**d, k: v}`, `k` maps to `v` and every other key keeps its value; a present key keeps its position, a new key is appended |
| JsonValue.OverrideMembers | sdks/python/kosha_client.py:87-92 | on a dict, `{**d, k: v}` stays a dict and holds exactly `(k, v)` and the pairs of `d` with another key |
| Canonical.StrLtTransitive | sdks/python/kosha_client.py:65 | the string order used by `sort_keys` is transitive |
| Canonical.StrLtTotal | sdks/python/kosha_client.py:65 | any two distinct keys are ordered one way or the other |
| Canonical.SortOrdered | sdks/python/kosha_client.py:65 | sorting a dict's members leaves the keys strictly increasing |
| Canonical.OrderedUnique | sdks/python/kosha_client.py:65 | two strictly ordered member lists with the same members are equal |
| Canonical.EscapeChar | sdks/python/kosha_client.py:65 | with `ensure_ascii` every character is written as printable ASCII, and only printable ASCII other than `"` and `\` stands for itself |
| Canonical.Escape | sdks/python/kosha_client.py:65 | an escaped string is at least as long as the original and entirely printable ASCII |
| Canonical.Serialize | sdks/python/kosha_client.py:65 | an int's text reads back as the int; strings, lists and dicts are delimited by quotes, brackets and braces |
| Canonical.SerializeSorted | sdks/python/kosha_client.py:65 | a dict is written as its members in strictly ascending key order, `"key": value` joined by ", " inside braces |
| Canonical.KeyOrderIrrelevant | sdks/python/kosha_client.py:65 | two dicts with the same members serialise to the same text, whatever their insertion order |
| Canonical.EquivSerialize | sdks/python/kosha_client.py:65 | values equal up to the key order of dicts (scalars identical) serialise identically, at every nesting depth |
| Audit.ComputeAuditHash | sdks/python/kosha_client.py:54-66 | for a dict the hash is taken over the text listing its members in strictly ascending key order |
| Audit.ExpectedRecord | sdks/python/kosha_client.py:87-92 | the rebuilt record maps each prediction field to the result's value (`None` when absent) and every other key to the original's value |
| Audit.ValidateResult | sdks/python/kosha_client.py:82-83 | a result without `audit_hash` is never valid |
| Audit.ExpectedRecordMembers | sdks/python/kosha_client.py:87-92 | the rebuilt record is a dict holding the original's non-prediction fields and the result's three prediction fields (`None` when absent) |
| Audit.ValidateSpec | sdks/python/kosha_client.py:68-95 | validation succeeds exactly when `audit_hash` equals the hash of the expected record, however that record's keys are ordered |
| Audit.ValidateKeyOrderIrrelevant | sdks/python/kosha_client.py:65-95 | reordering the original transaction's keys never changes the verdict |
| Audit.ValidateIgnoresOriginalPrediction | sdks/python/kosha_client.py:87-92 | whatever the original holds under a prediction field does not affect the verdict |
| Audit.ValidateReadsFourFields | sdks/python/kosha_client.py:82-95 | two results that agree on `audit_hash` and the three prediction fields get the same verdict |
| Audit.AuditHashIgnoresKeyOrder | sdks/python/kosha_client.py:54-66 | the audit hash depends only on the record's contents, not on key order at any depth |
| Batch.Throughput | sdks/python/kosha_client.py:200 | throughput times duration is the transaction count when duration is positive, and 0 otherwise |
| Batch.BuildResult | sdks/python/kosha_client.py:180-191 | a record yields a result exactly when it is a dict with all four required fields; the result carries the transaction's id or the `txn_{batch_id}_{i}` fallback, the four fields, `explainability_features` or `{}`, and both timestamps; otherwise a `KeyError` naming the first missing field in reading order, or a type error for a non-dict |
| Basics.CollectSpec | sdks/python/kosha_client.py:179-191 | a loop that stops at the first exception completes exactly when no step raises, keeps every step's value in order, and otherwise raises the first exception raised |
| Batch.ZipSucceeds | sdks/python/kosha_client.py:179-191 | the zip loop completes exactly when every record it reaches is complete, and otherwise fails with a malformed body or a missing field |
| Batch.ZipResults | sdks/python/kosha_client.py:179-191 | result `j` of a completed loop pairs transaction `j` with response record `j`: the id comes from the transaction, and the audit hash, exception flag, reason code, confidence and `explainability_features` (or `{}` when it is absent) come from the record; the count is the shorter of the two lists |
| Batch.ResultsFromBody | sdks/python/kosha_client.py:176-191 | a 200 body is accepted exactly when it decodes to something `zip` can walk and every paired record is complete; a list is zipped, and result `i` carries record `i`'s five fields, with `{}` for absent `explainability_features`; an empty dict or string gives no results |
| Batch.ErrorDetail | sdks/python/kosha_client.py:167-171 | an empty body gives "No response", a dict gives its `detail` or "Unknown error", anything else fails as malformed |
| Batch.ProcessBatch | sdks/python/kosha_client.py:137-201 | success exactly on status 200 with an accepted body; then the batch id, count, `failed == 0`, duration, throughput and for a list reply, result `i` carries record `i`'s five fields, with `{}` for absent `explainability_features`; an unreachable host fails with its reason; a non-200 status raises with the batch id, status and detail, or fails as malformed when that detail cannot be read |
| Processor.NewProcessor | sdks/python/kosha_client.py:120-123 | the chunk size is `min(batch_size, 5000)`; retries, timeout and callback pass through |
| Processor.FlattenBound | sdks/python/kosha_client.py:222-224 | chunks of at most `b` records hold at most `count * b` records in all |
| Processor.ChunksFlatten | sdks/python/kosha_client.py:222-224 | the chunks put back together are exactly the input from the start offset on |
| Processor.ChunkShape | sdks/python/kosha_client.py:222-224 | chunk `k` has id `k + 1` and is the slice at offset `k * size`; every chunk but the last is full |
| Processor.ChunksCount | sdks/python/kosha_client.py:222 | the number of chunks is the ceiling of the remaining length over the size |
| Processor.ChunksPartition | sdks/python/kosha_client.py:222-224 | the chunks partition the input in order, with ids 1, 2, …, sizes between 1 and the chunk size, all but the last full |
| Processor.InvalidIdsSpec | sdks/python/kosha_client.py:231-246 | `invalid_hashes` is empty exactly when every result passes, and each listed id is the id of a result that fails |
| Processor.InvalidIdsExact | sdks/python/kosha_client.py:231-246 | `invalid_hashes` lists the ids of exactly the failing results, one each, in the order the results came back, so its length is the number of failures |
| Processor.AttemptSpec | sdks/python/kosha_client.py:226-257 | one loop iteration sends its chunk once; a raising call adds only its failed-batch entry; a returning one adds its results, one progress call when there is a callback, and with validation one warning under its batch id exactly when a result fails |
| Processor.ViewValidation | sdks/python/kosha_client.py:235-243 | the view always carries `audit_hash`, so validating it is exactly comparing that hash with the recomputed one |
| Processor.Poster | sdks/python/kosha_client.py:227 | `process_batch` never returns more results than the chunk has records |
| Processor.ProcessAllSpec | sdks/python/kosha_client.py:216-269 | `process_all` raises exactly when the chunk size is 0; a negative size sends nothing and reports every transaction failed |
| Processor.ProcessAll | sdks/python/kosha_client.py:203-269 | the loop as written computes the run `ProcessAllSpec` defines |
| Processor.ProcessAllLoop | sdks/python/kosha_client.py:222-257 | the loop keeps as its invariant that its state is the trace of the chunks processed so far |
| Processor.CollectInvalid | sdks/python/kosha_client.py:232-244 | the appending loop builds exactly `invalid_hashes` |
| ProcessorProps.RunOutcomes | sdks/python/kosha_client.py:222-257 | a run sends every chunk in order; it collects exactly the delivered results, records exactly the failed chunks, and reports progress once per success (only with a callback) |
| ProcessorProps.RunWarnings | sdks/python/kosha_client.py:231-249 | no warning is emitted without validation; with validation there is none exactly when every delivered result passes |
| ProcessorProps.FailuresAndReports | sdks/python/kosha_client.py:226-257 | each chunk either fails or reports progress, never both |
| ProcessorProps.DeliveredLength | sdks/python/kosha_client.py:228 | no more results than records are collected, and exactly as many with no failed batch when every chunk is fully answered |
| ProcessorProps.RunAt | sdks/python/kosha_client.py:222-257 | a run is the run of the chunks before chunk `k`, then chunk `k`'s iteration, then the run of the chunks after it |
| ProcessorProps.FailureIsolated | sdks/python/kosha_client.py:255-257 | a failing chunk contributes no results and one failed-batch entry, and does not stop the chunks after it |
| ProcessorProps.ReportsAscend | sdks/python/kosha_client.py:252-253 | progress positions strictly increase |
| ProcessorProps.DeliveredAt | sdks/python/kosha_client.py:227-228 | when every chunk is fully answered, the collected result for record `j` of chunk `k` comes right after the records of the earlier chunks and is the one chunk `k`'s batch returned for it |
| ProcessorProps.ChunkOfOffset | sdks/python/kosha_client.py:222-224 | input position `p` lies in chunk `p // size`, whose id is `p // size + 1`, at position `p % size` |
| ProcessorProps.ProcessAllCounts | sdks/python/kosha_client.py:261-268 | `total_transactions` is the input length, `successful` is the number of results, and `successful + failed` is the total |
| ProcessorProps.ProcessAllThroughput | sdks/python/kosha_client.py:267 | throughput times total time is the input length when the time is positive, and 0 otherwise |
| ProcessorProps.ProcessAllReports | sdks/python/kosha_client.py:231-257 | no warnings without validation, no progress without a callback, and with a callback every chunk is either failed or reported |
| ProcessorProps.ProcessAllChunks | sdks/python/kosha_client.py:222-224 | for a positive size the chunks sent partition the input in order, with ids from 1 and all but the last full |
| ProcessorProps.ValidationObservational | sdks/python/kosha_client.py:231-249 | turning validation on changes only the warnings: results, failures and progress stay the same |
| ProcessorProps.WarningsExactlyOnBadHashes | sdks/python/kosha_client.py:231-249 | with validation, the run prints no warning at all exactly when every delivered result passes the audit check |
| ProcessorProps.WarningsAt | sdks/python/kosha_client.py:231-249 | with validation, chunk `k` contributes, between the warnings of the chunks before and after it, one warning with its batch id and its `invalid_hashes` exactly when it went through and one of its results fails |
| ProcessorProps.ChunkWarning | sdks/python/kosha_client.py:221-249 | in `process_all` with validation, the `k`-th chunk is batch `k + 1` and contributes `Warning(k + 1, invalid_hashes)` exactly when it went through and one of its results fails |
| ProcessorProps.ProgressAscends | sdks/python/kosha_client.py:252-253 | every progress call has `0 < current <= total` and the input length as total, and the positions increase |
| ProcessorProps.AllDeliveredRun | sdks/python/kosha_client.py:222-268 | when every chunk is fully answered, nothing fails and result `i` carries the id of transaction `i` or `txn_{i // size + 1}_{i % size}` |
| ProcessorProps.DeliveredLabels | sdks/python/kosha_client.py:182-228 | when every chunk is fully answered, exactly one result per input is collected, none fails, and result `i` carries the id of input `i` or its fallback `txn_{i // size + 1}_{i % size}` |
| ProcessorProps.PosterDelivers | sdks/python/kosha_client.py:176-201 | a status-200 list reply with a complete record for every transaction delivers the whole chunk |
| Client.ProcessorFor | sdks/python/kosha_client.py:369-375 | the processor gets `min(batch_size, 5000)` and the client's retries and timeout |
| Client.ReconcileBatch | sdks/python/kosha_client.py:349-377 | the result is exactly `process_all`'s run on the processor built from the client's settings, with the validation flag and the callback passed on; it raises exactly for a chunk size of 0; a positive size posts the input in order in chunks of `min(batch_size, 5000)` records, all but the last full; a negative size sends nothing |
| Client.ClampApplied | sdks/python/kosha_client.py:120 | a client configured above 5000 with more than 5000 transactions still sends a first chunk of exactly 5000 |
| Report.RowOf | examples/csv-import/reconcile_csv.py:66-79 | the three fields read: `is_match` truthiness, `match_type` with default 'unknown', `confidence_score` with default 0, each the stored value when present |
| Report.MatchedCountSpec | examples/csv-import/reconcile_csv.py:66 | `matched` counts the matched results: 0 exactly when none match, the total exactly when all do |
| Report.BumpCounts | examples/csv-import/reconcile_csv.py:74 | `d[t] = d.get(t, 0) + 1` adds one to `t`'s count and the total and leaves other counts alone |
| Report.BumpKeys | examples/csv-import/reconcile_csv.py:74 | the update adds no key but `t`'s and keeps keys distinct as Python compares them |
| Report.BumpPositive | examples/csv-import/reconcile_csv.py:74 | the update never stores a zero count |
| Report.MatchTypesSpec | examples/csv-import/reconcile_csv.py:70-74 | the loop fails exactly when a matched result has a list or dict type, at the first one; otherwise the keys are distinct, no count is zero, each type's count is the number of matches of that type, and the counts sum to `matched` |
| Report.ToFloat | examples/csv-import/reconcile_csv.py:78 | `float()` accepts booleans and floats with their numeric value, and ints exactly when their magnitude is below 2^1024 - 2^970 (`OverflowError` otherwise); it rejects `None`, lists and dicts |
| Report.ConfidencesSpec | examples/csv-import/reconcile_csv.py:77-81 | the list has one entry per match, the float of its score, and is built exactly when every matched score converts |
| Report.AverageWithin | examples/csv-import/reconcile_csv.py:82 | the mean of values within `[lo, hi]` lies within `[lo, hi]` |
| Report.MatchRate | examples/csv-import/reconcile_csv.py:88 | the rate is 0 for no results, otherwise rate times total is 100 times matched, within 0 to 100 |
| Report.Summarize | examples/csv-import/reconcile_csv.py:63-91 | a computed report has `total_processed` the row count, `matched + unmatched` equal to it, a rate within 0 to 100 that is 0 for no rows, and average 0 when nothing matched |
| Report.GenerateReport | examples/csv-import/reconcile_csv.py:63-91 | `total_processed` is the input length and `matched + unmatched` equals it; the rate lies within 0 to 100 and is 0 for no results; the average is 0 when nothing matched |
| Report.ReportErrors | examples/csv-import/reconcile_csv.py:70-82 | a report is produced exactly when every match has a hashable type and a convertible score; an unhashable type is the error whenever one exists |
| Report.ReportHistogram | examples/csv-import/reconcile_csv.py:66-74 | the reported histogram has distinct keys and no zero count, counts each type among the matches, and sums to `matched` |
| Report.ReportAverageWithin | examples/csv-import/reconcile_csv.py:77-82 | when something matched and every matched score converts to a value within `[lo, hi]`, the reported average confidence lies within `[lo, hi]` |
| Report.ReportAverage | examples/csv-import/reconcile_csv.py:77-82 | the average confidence times the number of matches is the sum of their scores |

## Left out

- Retries with exponential backoff are not modelled. They belong to the urllib3 `Retry` adapter,
  which lives outside the repository. A transport's single observed outcome stands for a request
  and all its retries, so `maxRetries` and `timeout` are carried as configuration only.
- The URL, `rstrip('/')`, headers and the HTTP session are not modelled. They are part of the
  transport parameter.
- Clocks (`time.time`, `datetime.now().isoformat()`) are not modelled. They become the
  timestamps and durations of `Exchange` and the `totalTime` parameter.
- SHA-256 and Python's float `repr` are not modelled. They are function parameters, and the
  hash properties hold for any choice of them.
- Floating-point arithmetic (throughput, match rate, average, `float()` of an int) is modelled
  over exact reals, so rounding is not represented. Infinities and NaN have no real value, so a
  score string that Python reads as `inf` or `nan` is outside what `parse` can return.
- Strings holding a lone surrogate are not modelled. Dafny's `char` is a Unicode scalar value,
  so a decoded `"\ud800"` has no representation, although `json.dumps` with `ensure_ascii=True`
  would write it back as `\ud800`.
- JSON objects with duplicate keys are not modelled as Python decodes them. A decoded reply
  is taken as given, and `Lookup` reads the first member with a key, while `json.loads` keeps
  the last one. No stated property depends on which duplicate wins.
- `default=str` in `json.dumps` is not modelled, because decoded JSON values never need it.
- `str(e)` is not rendered into text. A failed batch keeps the exception value, which carries the
  batch id, status and detail.
- Printing is not modelled as output. The validation warning is recorded as a value. The printed
  error line for a failed batch is not separate from its failed-batch entry.
- Exceptions raised by a progress callback or by the validation step itself are not modelled.
  The callback is modelled only as a position log, and validation as a total function.
- ProcessorProps.PosterDelivers: only list replies are covered. Other bodies are handled by
  `ProcessBatch`'s own contract.
- Processor.ProcessAllSpec: its positive-size chunking contract is stated by
  `ProcessorProps.ProcessAllChunks`, not in its own ensures.
- Report.GenerateReport: the histogram and average properties are stated over the rows, by
  `ReportHistogram` and `ReportAverage`, and not on `GenerateReport` itself.
- The CSV loading, printing and `main` of the import example are not modelled, because they are
  I/O.
- `reconcile_transaction` and `health_check` are not modelled, because each is a single HTTP call
  with no logic.

=== FILE: audit.dfy ===
/** `AuditHashValidator` (sdks/python/kosha_client.py): recomputing the
    server's audit hash from the transaction that was sent and the prediction
    that came back, and comparing it with the `audit_hash` the server returned. */
module Audit {
  import opened Basics
  import opened JsonValue
  import opened Canonical

  /** The foreign primitives the validator relies on and this model does not
      reproduce: `hashlib.sha256(text.encode()).hexdigest()` and the text
      `json.dumps` writes for a float. */
  datatype Primitives = Primitives(sha256Hex: string -> string, floatRepr: real -> string)

  /** The prediction fields the server folds into the hashed record. */
  const PredictionFields: seq<string> := ["exception_flag", "reason_code", "confidence"]

  /** `compute_audit_hash(data)`: SHA-256 of the key-sorted JSON text. */
  function ComputeAuditHash(data: Record, prims: Primitives): (h: string)
    ensures DistinctKeys(data) ==> exists ms ::
      && Ordered(ms)
      && (forall x :: x in ms <==> x in SerializedMembers(data, prims.floatRepr))
      && h == prims.sha256Hex("{" + Join(MemberTexts(ms), ", ") + "}")
  {
    if DistinctKeys(data) then SerializeSorted(data, prims.floatRepr); prims.sha256Hex(Serialize(JObj(data), prims.floatRepr))
    else prims.sha256Hex(Serialize(JObj(data), prims.floatRepr))
  }

  /** `{**original, "exception_flag": result.get(...), "reason_code": ...,
      "confidence": ...}`: the record the server is expected to have hashed. */
  function ExpectedRecord(result: Record, original: Record): (e: Record)
    ensures Lookup(e, "exception_flag") == Some(Get(result, "exception_flag"))
    ensures Lookup(e, "reason_code") == Some(Get(result, "reason_code"))
    ensures Lookup(e, "confidence") == Some(Get(result, "confidence"))
    ensures forall k :: k !in PredictionFields ==> Lookup(e, k) == Lookup(original, k)
  {
    var e1 := Override(original, "exception_flag", Get(result, "exception_flag"));
    var e2 := Override(e1, "reason_code", Get(result, "reason_code"));
    Override(e2, "confidence", Get(result, "confidence"))
  }

  /** `validate_result(result, original_transaction)`. */
  function ValidateResult(result: Record, original: Record, prims: Primitives): (ok: bool)
    ensures !HasKey(result, "audit_hash") ==> !ok
  {
    match Lookup(result, "audit_hash")
    case None => false
    case Some(h) => h == JStr(ComputeAuditHash(ExpectedRecord(result, original), prims))
  }

  /** `e` is a dict holding exactly what the server hashes for this pair: the
      original's fields other than the three prediction fields, and those three
      taken from the result (`None` where the result lacks one), in any order. */
  ghost predicate IsExpectedFor(e: Record, result: Record, original: Record) {
    && DistinctKeys(e)
    && forall x :: x in e <==>
         (x.0 in PredictionFields && x.1 == Get(result, x.0)) || (x in original && x.0 !in PredictionFields)
  }

  /** The record built by `ExpectedRecord` is the expected dict. */
  lemma {:induction false} ExpectedRecordMembers(result: Record, original: Record)
    requires DistinctKeys(original)
    ensures IsExpectedFor(ExpectedRecord(result, original), result, original)
  {
    var a, b, c := Get(result, "exception_flag"), Get(result, "reason_code"), Get(result, "confidence");
    var e1 := Override(original, "exception_flag", a);
    var e2 := Override(e1, "reason_code", b);
    var e := Override(e2, "confidence", c);
    OverrideMembers(original, "exception_flag", a);
    OverrideMembers(e1, "reason_code", b);
    OverrideMembers(e2, "confidence", c);
    ThreeOverrides(original, e1, e2, e, a, b, c);
    forall x
      ensures x in e <==>
        (x.0 in PredictionFields && x.1 == Get(result, x.0)) || (x in original && x.0 !in PredictionFields)
    {
      assert x.0 in PredictionFields <==> x.0 == "exception_flag" || x.0 == "reason_code" || x.0 == "confidence";
    }
  }

  /** Three successive overrides of the three prediction fields leave the
      original's other members and exactly the three new pairs. */
  lemma ThreeOverrides(original: Record, e1: Record, e2: Record, e: Record, a: Json, b: Json, c: Json)
    requires forall x :: x in e1 <==> x == ("exception_flag", a) || (x in original && x.0 != "exception_flag")
    requires forall x :: x in e2 <==> x == ("reason_code", b) || (x in e1 && x.0 != "reason_code")
    requires forall x :: x in e <==> x == ("confidence", c) || (x in e2 && x.0 != "confidence")
    ensures forall x :: x in e <==>
      || x == ("exception_flag", a) || x == ("reason_code", b) || x == ("confidence", c)
      || (x in original && x.0 !in PredictionFields)
  {
    assert |"exception_flag"| == 14 && |"reason_code"| == 11 && |"confidence"| == 10;
    assert forall k :: k in PredictionFields <==> k == "exception_flag" || k == "reason_code" || k == "confidence";
  }

  /** Validation accepts exactly the results whose `audit_hash` is the hash of
      the expected dict, however that dict's keys are ordered. */
  lemma ValidateSpec(result: Record, original: Record, e: Record, prims: Primitives)
    requires DistinctKeys(original)
    requires IsExpectedFor(e, result, original)
    ensures ValidateResult(result, original, prims)
        <==> Lookup(result, "audit_hash") == Some(JStr(ComputeAuditHash(e, prims)))
  {
    var built := ExpectedRecord(result, original);
    ExpectedRecordMembers(result, original);
    KeyOrderIrrelevant(built, e, prims.floatRepr);
  }

  /** Two originals that hold the same fields in a different key order
      validate every result identically. */
  lemma ValidateKeyOrderIrrelevant(result: Record, o1: Record, o2: Record, prims: Primitives)
    requires DistinctKeys(o1) && DistinctKeys(o2)
    requires forall x :: x in o1 <==> x in o2
    ensures ValidateResult(result, o1, prims) == ValidateResult(result, o2, prims)
  {
    ExpectedRecordMembers(result, o2);
    ValidateSpec(result, o1, ExpectedRecord(result, o2), prims);
  }

  /** Whatever the original holds under a prediction field is overwritten:
      changing or adding it does not change the verdict. */
  lemma ValidateIgnoresOriginalPrediction(result: Record, original: Record, k: string, w: Json, prims: Primitives)
    requires DistinctKeys(original)
    requires k in PredictionFields
    ensures ValidateResult(result, Override(original, k, w), prims) == ValidateResult(result, original, prims)
  {
    var changed := Override(original, k, w);
    OverrideMembers(original, k, w);
    ExpectedRecordMembers(result, original);
    ValidateSpec(result, changed, ExpectedRecord(result, original), prims);
  }

  /** Only `audit_hash` and the three prediction fields of a result are read. */
  lemma ValidateReadsFourFields(r1: Record, r2: Record, original: Record, prims: Primitives)
    requires Lookup(r1, "audit_hash") == Lookup(r2, "audit_hash")
    requires forall k :: k in PredictionFields ==> Lookup(r1, k) == Lookup(r2, k)
    ensures ValidateResult(r1, original, prims) == ValidateResult(r2, original, prims)
  {
    assert ExpectedRecord(r1, original) == ExpectedRecord(r2, original) by {
      assert Get(r1, "exception_flag") == Get(r2, "exception_flag");
      assert Get(r1, "reason_code") == Get(r2, "reason_code");
      assert Get(r1, "confidence") == Get(r2, "confidence");
    }
  }

  /** The audit hash of a record depends only on its contents: dicts nested at
      any depth may have been built with their keys in any order. */
  lemma AuditHashIgnoresKeyOrder(d1: Record, d2: Record, prims: Primitives)
    requires Equiv(JObj(d1), JObj(d2))
    ensures ComputeAuditHash(d1, prims) == ComputeAuditHash(d2, prims)
  {
    EquivSerialize(JObj(d1), JObj(d2), prims.floatRepr);
  }
}

=== FILE: basics.dfy ===
/** Small shared building blocks: the Option/Result wrappers that stand in for
    Python's `None` and raised exceptions, and the decimal and hexadecimal
    renderings that `str(int)` and `json.dumps`' `\uXXXX` escapes produce. */
module Basics {

  /** A value that may be absent, as `dict.get` without a default returns `None`. */
  datatype Option<T> = None | Some(value: T) {
    /** `dict.get(key, default)`: the value if present, the default otherwise. */
    function GetOr(default: T): T {
      match this
      case Some(v) => v
      case None => default
    }
  }

  /** Either a value or the exception that a Python call would have raised. */
  datatype Result<T, E> = Ok(value: T) | Err(error: E)

  function Min(a: int, b: int): int {
    if a <= b then a else b
  }

  /** A loop that computes one value per element and stops at the first
      exception: every value in order, or the first exception raised. */
  function Collect<T, E>(rs: seq<Result<T, E>>): (r: Result<seq<T>, E>)
    ensures r.Ok? ==> |r.value| == |rs|
  {
    if |rs| == 0 then Ok([])
    else
      match rs[0]
      case Err(e) => Err(e)
      case Ok(x) =>
        match Collect(rs[1..])
        case Err(e) => Err(e)
        case Ok(xs) => Ok([x] + xs)
  }

  /** The loop completes exactly when no step raises, and then value `j` is
      the one step `j` computed; otherwise it raises what the first raising
      step raised. */
  lemma {:induction false} CollectSpec<T, E>(rs: seq<Result<T, E>>)
    ensures Collect(rs).Ok? <==> forall j :: 0 <= j < |rs| ==> rs[j].Ok?
    ensures Collect(rs).Ok? ==> forall j :: 0 <= j < |rs| ==> rs[j] == Ok(Collect(rs).value[j])
    ensures Collect(rs).Err? ==>
      exists j :: 0 <= j < |rs| && rs[j] == Err(Collect(rs).error) && forall i :: 0 <= i < j ==> rs[i].Ok?
  {
    if |rs| > 0 {
      var tail := rs[1..];
      CollectSpec(tail);
      assert forall j :: 1 <= j < |rs| ==> rs[j] == tail[j - 1];
      if rs[0].Ok? && Collect(tail).Err? {
        var j :| 0 <= j < |tail| && tail[j] == Err(Collect(tail).error) && forall i :: 0 <= i < j ==> tail[i].Ok?;
        assert rs[j + 1] == tail[j];
      }
    }
  }

  /** The decimal digit characters, in value order. */
  const Digits: string := "0123456789"

  /** The lower-case hexadecimal digit characters, in value order. */
  const HexDigits: string := "0123456789abcdef"

  /** Value of a string of decimal digits, most significant first. */
  function DigitsValue(s: string): int
    decreases |s|
  {
    if |s| == 0 then 0
    else DigitsValue(s[..|s| - 1]) * 10 + (s[|s| - 1] as int - '0' as int)
  }

  /** `str(n)` for a non-negative Python int: its decimal digits without leading zeros. */
  function NatToString(n: nat): (s: string)
    ensures |s| >= 1
    ensures '0' <= s[0] <= '9'
    ensures |s| > 1 ==> s[0] != '0'
    decreases n
  {
    if n < 10 then [Digits[n]] else NatToString(n / 10) + [Digits[n % 10]]
  }

  /** `str(n)` consists of decimal digits only. */
  lemma {:induction false} NatToStringDigits(n: nat)
    ensures forall i :: 0 <= i < |NatToString(n)| ==> '0' <= NatToString(n)[i] <= '9'
    decreases n
  {
    if n >= 10 {
      NatToStringDigits(n / 10);
      var prefix := NatToString(n / 10);
      assert NatToString(n) == prefix + [Digits[n % 10]];
    }
  }

  /** Reading the decimal text of `n` back gives `n`: the rendering loses nothing. */
  lemma {:induction false} NatToStringRoundTrip(n: nat)
    ensures DigitsValue(NatToString(n)) == n
    decreases n
  {
    if n >= 10 {
      var prefix := NatToString(n / 10);
      var s := prefix + [Digits[n % 10]];
      assert s == NatToString(n);
      NatToStringRoundTrip(n / 10);
      assert s[..|s| - 1] == prefix;
      assert DigitsValue(s) == DigitsValue(prefix) * 10 + n % 10;
    } else {
      var s := [Digits[n]];
      assert s[..0] == [];
      assert DigitsValue(s) == n;
    }
  }

  /** `str(i)` for any Python int: a leading '-' for negative values. */
  function IntToString(i: int): (s: string)
    ensures |s| >= 1
    ensures i < 0 <==> s[0] == '-'
  {
    if i < 0 then "-" + NatToString(-i) else NatToString(i)
  }

  /** `int(s)` for the text `str` writes: an optional '-' followed by decimal digits. */
  function IntValue(s: string): int {
    if |s| > 0 && s[0] == '-' then -DigitsValue(s[1..]) else DigitsValue(s)
  }

  /** Reading `str(i)` back with `int` gives `i`, so distinct ints render
      as distinct texts. */
  lemma IntToStringRoundTrip(i: int)
    ensures IntValue(IntToString(i)) == i
  {
    if i < 0 {
      var t := NatToString(-i);
      NatToStringRoundTrip(-i);
      var s := "-" + t;
      assert s == IntToString(i) && s[0] == '-' && s[1..] == t;
    } else {
      NatToStringRoundTrip(i);
    }
  }

  /** Four lower-case hex digits of a 16-bit value, most significant first
      (the `{0:04x}` format used for `\uXXXX` escapes). */
  function Hex4(n: nat): (s: string)
    requires n < 0x1_0000
    ensures |s| == 4
    ensures forall i :: 0 <= i < 4 ==> s[i] in HexDigits
  {
    [HexDigits[n / 0x1000], HexDigits[(n / 0x100) % 16], HexDigits[(n / 16) % 16], HexDigits[n % 16]]
  }
}

=== FILE: batch.dfy ===
/** `BatchProcessor.process_batch` (sdks/python/kosha_client.py): one POST of
    a chunk of transactions and the assembly of its `BatchResult`. The HTTP
    round trip itself (session, urllib3 retries, clocks) is an `Exchange`
    handed in by the caller; everything done with the reply is modelled. */
module Batch {
  import opened Basics
  import opened JsonValue

  /** The response body as `process_batch` sees it: empty text, text that is
      not JSON (`response.json()` raises), or a decoded JSON value. */
  datatype Body = NoText | Undecodable | Decoded(value: Json)

  /** The outcome of `session.post`: either it raised before a response
      arrived (connection error, timeout, urllib3 retries exhausted), or a
      response with a status code and a body. */
  datatype Reply = Unreachable(reason: string) | Http(status: int, body: Body)

  /** One round trip as the client observed it: the reply, the two ISO-8601
      timestamps taken around the call, and the measured duration. */
  datatype Exchange = Exchange(reply: Reply, requestedAt: string, respondedAt: string, duration: real)

  /** `TransactionResult`. Python does not enforce the annotated field types,
      so each field holds whatever JSON value the server sent. */
  datatype TransactionResult = TransactionResult(
    transactionId: Json,
    auditHash: Json,
    exceptionFlag: Json,
    reasonCode: Json,
    confidence: Json,
    explainabilityFeatures: Json,
    requestTimestamp: string,
    responseTimestamp: string)

  /** `BatchResult`. */
  datatype BatchResult = BatchResult(
    batchId: int,
    totalTransactions: nat,
    successful: nat,
    failed: nat,
    results: seq<TransactionResult>,
    durationSeconds: real,
    throughput: real)

  /** The exceptions `process_batch` can raise. */
  datatype BatchError =
      /** raised by `session.post` itself */
    | TransportFailure(reason: string)
      /** `RequestException("Batch {batch_id} failed with status {status}: {detail}")` */
    | Rejected(batchId: int, status: int, detail: Json)
      /** `JSONDecodeError`, or the `TypeError`/`AttributeError` of treating a
          body of the wrong shape as a list of dicts or as an error dict */
    | MalformedBody
      /** `KeyError` for a response record lacking a required field */
    | MissingField(key: string)

  /** The fields every response record must carry, in the order they are read. */
  const RequiredFields: seq<string> := ["audit_hash", "exception_flag", "reason_code", "confidence"]

  /** `f"txn_{batch_id}_{i}"`. */
  function FallbackId(batchId: int, i: nat): string {
    "txn_" + IntToString(batchId) + "_" + NatToString(i)
  }

  /** `txn.get("transaction_id", f"txn_{batch_id}_{i}")`. */
  function TransactionIdFor(txn: Record, batchId: int, i: nat): Json {
    Lookup(txn, "transaction_id").GetOr(JStr(FallbackId(batchId, i)))
  }

  /** `len(transactions) / duration if duration > 0 else 0`. */
  function Throughput(count: nat, duration: real): (t: real)
    ensures duration > 0.0 ==> t * duration == count as real
    ensures duration <= 0.0 ==> t == 0.0
  {
    if duration > 0.0 then count as real / duration else 0.0
  }

  /** A response record that can be turned into a `TransactionResult`: a dict
      with the four required fields. */
  predicate Complete(item: Json) {
    && item.JObj?
    && Lookup(item.fields, "audit_hash").Some?
    && Lookup(item.fields, "exception_flag").Some?
    && Lookup(item.fields, "reason_code").Some?
    && Lookup(item.fields, "confidence").Some?
  }

  /** The `TransactionResult` built from the `i`-th transaction and the `i`-th
      response record, or the exception building it raises. */
  function BuildResult(txn: Record, item: Json, batchId: int, i: nat, requestedAt: string, respondedAt: string)
    : (r: Result<TransactionResult, BatchError>)
    ensures r.Ok? <==> Complete(item)
    ensures r.Ok? ==>
      && r.value.transactionId == TransactionIdFor(txn, batchId, i)
      && r.value.auditHash == Get(item.fields, "audit_hash")
      && r.value.exceptionFlag == Get(item.fields, "exception_flag")
      && r.value.reasonCode == Get(item.fields, "reason_code")
      && r.value.confidence == Get(item.fields, "confidence")
      && r.value.requestTimestamp == requestedAt
      && r.value.responseTimestamp == respondedAt
      && r.value.explainabilityFeatures == Lookup(item.fields, "explainability_features").GetOr(JObj([]))
    ensures r.Err? && item.JObj? ==> r.error.MissingField? && r.error.key in RequiredFields
    // the fields are read in order, so the one reported is the first missing
    ensures r.Err? && item.JObj? ==>
      exists n :: 0 <= n < |RequiredFields| && RequiredFields[n] == r.error.key
        && Lookup(item.fields, RequiredFields[n]).None?
        && forall m :: 0 <= m < n ==> Lookup(item.fields, RequiredFields[m]).Some?
    ensures r.Err? && !item.JObj? ==> r.error == MalformedBody
  {
    if !item.JObj? then Err(MalformedBody)
    else
      var f := item.fields;
      if Lookup(f, "audit_hash").None? then Err(MissingField("audit_hash"))
      else if Lookup(f, "exception_flag").None? then Err(MissingField("exception_flag"))
      else if Lookup(f, "reason_code").None? then Err(MissingField("reason_code"))
      else if Lookup(f, "confidence").None? then Err(MissingField("confidence"))
      else
        Ok(TransactionResult(
          TransactionIdFor(txn, batchId, i),
          Get(f, "audit_hash"),
          Get(f, "exception_flag"),
          Get(f, "reason_code"),
          Get(f, "confidence"),
          Lookup(f, "explainability_features").GetOr(JObj([])),
          requestedAt,
          respondedAt))
  }

  /** The outcome of building each pair `enumerate(zip(transactions,
      results_json))` draws: as many as the shorter list has elements. */
  function Builds(txns: seq<Record>, items: seq<Json>, batchId: int, requestedAt: string, respondedAt: string)
    : (bs: seq<Result<TransactionResult, BatchError>>)
    ensures |bs| == Min(|txns|, |items|)
    ensures forall j :: 0 <= j < |bs| ==> bs[j] == BuildResult(txns[j], items[j], batchId, j, requestedAt, respondedAt)
  {
    seq(Min(|txns|, |items|), j requires 0 <= j < Min(|txns|, |items|) =>
      BuildResult(txns[j], items[j], batchId, j, requestedAt, respondedAt))
  }

  /** The `for i, (txn, result) in enumerate(zip(...))` loop: pairs are built
      in order up to the shorter list, and the first record that cannot be
      built stops the loop with its exception. */
  function Zip(txns: seq<Record>, items: seq<Json>, batchId: int, requestedAt: string, respondedAt: string)
    : (r: Result<seq<TransactionResult>, BatchError>)
    ensures r.Ok? ==> |r.value| == Min(|txns|, |items|)
  {
    Collect(Builds(txns, items, batchId, requestedAt, respondedAt))
  }

  /** The loop completes exactly when every record it draws is complete, and
      otherwise fails with a malformed body or a missing field. */
  lemma ZipSucceeds(txns: seq<Record>, items: seq<Json>, batchId: int, requestedAt: string, respondedAt: string)
    ensures Zip(txns, items, batchId, requestedAt, respondedAt).Ok?
        <==> forall j :: 0 <= j < Min(|txns|, |items|) ==> Complete(items[j])
    ensures Zip(txns, items, batchId, requestedAt, respondedAt).Err? ==>
      var e := Zip(txns, items, batchId, requestedAt, respondedAt).error;
      e == MalformedBody || e.MissingField?
  {
    var bs := Builds(txns, items, batchId, requestedAt, respondedAt);
    CollectSpec(bs);
    if Collect(bs).Err? {
      var j :| 0 <= j < |bs| && bs[j] == Err(Collect(bs).error) && forall i :: 0 <= i < j ==> bs[i].Ok?;
      assert bs[j] == BuildResult(txns[j], items[j], batchId, j, requestedAt, respondedAt);
    }
  }

  /** Result `j` of a completed loop pairs transaction `j` with response
      record `j`: its id comes from the transaction, its prediction fields
      from the record, and its timestamps from the round trip. */
  lemma ZipResults(txns: seq<Record>, items: seq<Json>, batchId: int, requestedAt: string, respondedAt: string)
    requires Zip(txns, items, batchId, requestedAt, respondedAt).Ok?
    ensures var rs := Zip(txns, items, batchId, requestedAt, respondedAt).value;
      && |rs| == Min(|txns|, |items|)
      && forall j :: 0 <= j < |rs| ==>
           && items[j].JObj?
           && rs[j].transactionId == TransactionIdFor(txns[j], batchId, j)
           && rs[j].auditHash == Get(items[j].fields, "audit_hash")
           && rs[j].exceptionFlag == Get(items[j].fields, "exception_flag")
           && rs[j].reasonCode == Get(items[j].fields, "reason_code")
           && rs[j].confidence == Get(items[j].fields, "confidence")
           && rs[j].explainabilityFeatures == Lookup(items[j].fields, "explainability_features").GetOr(JObj([]))
           && rs[j].requestTimestamp == requestedAt
           && rs[j].responseTimestamp == respondedAt
  {
    var bs := Builds(txns, items, batchId, requestedAt, respondedAt);
    CollectSpec(bs);
  }

  /** The number of elements `zip` draws from a decoded body: list items, dict
      keys, or string characters. */
  function IterLength(v: Json): nat {
    match v
    case JArr(items) => |items|
    case JObj(fields) => |fields|
    case JStr(s) => |s|
    case _ => 0
  }

  /** The results assembled from a status-200 body. A list is zipped with the
      transactions. A dict or a string is iterable too, but indexing its keys
      or characters by "audit_hash" raises `TypeError` as soon as one pair is
      drawn. Any other value is not iterable at all. */
  function ResultsFromBody(body: Body, txns: seq<Record>, batchId: int, requestedAt: string, respondedAt: string)
    : (r: Result<seq<TransactionResult>, BatchError>)
    ensures r.Ok? <==> Accepted(body, txns)
    ensures r.Ok? ==> |r.value| <= |txns|
    ensures r.Ok? ==> forall i :: 0 <= i < |r.value| ==>
      && r.value[i].transactionId == TransactionIdFor(txns[i], batchId, i)
      && r.value[i].requestTimestamp == requestedAt
      && r.value[i].responseTimestamp == respondedAt
    ensures r.Ok? && body.Decoded? && body.value.JArr? ==>
      var items := body.value.items;
      && |r.value| == Min(|txns|, |items|)
      && forall i :: 0 <= i < |r.value| ==>
           && items[i].JObj?
           && r.value[i].auditHash == Get(items[i].fields, "audit_hash")
           && r.value[i].exceptionFlag == Get(items[i].fields, "exception_flag")
           && r.value[i].reasonCode == Get(items[i].fields, "reason_code")
           && r.value[i].confidence == Get(items[i].fields, "confidence")
           && r.value[i].explainabilityFeatures == Lookup(items[i].fields, "explainability_features").GetOr(JObj([]))
    ensures r.Ok? && !(body.Decoded? && body.value.JArr?) ==> r.value == []
    ensures r.Err? ==> r.error == MalformedBody || r.error.MissingField?
  {
    match body
    case NoText => Err(MalformedBody)
    case Undecodable => Err(MalformedBody)
    case Decoded(JArr(items)) =>
      ZipSucceeds(txns, items, batchId, requestedAt, respondedAt);
      var r := Zip(txns, items, batchId, requestedAt, respondedAt);
      if r.Ok? then ZipResults(txns, items, batchId, requestedAt, respondedAt); r else r
    case Decoded(v) =>
      if (v.JObj? || v.JStr?) && Min(|txns|, IterLength(v)) == 0 then Ok([]) else Err(MalformedBody)
  }

  /** The `detail` reported for a non-200 reply: "No response" for an empty
      body, the dict's `detail` (default "Unknown error") for a JSON dict; any
      other body makes building the message itself raise. */
  function ErrorDetail(body: Body): (r: Result<Json, BatchError>)
    ensures body.NoText? ==> r == Ok(JStr("No response"))
    ensures body.Decoded? && body.value.JObj? ==>
      && r.Ok?
      && (Lookup(body.value.fields, "detail").Some? ==> Some(r.value) == Lookup(body.value.fields, "detail"))
      && (Lookup(body.value.fields, "detail").None? ==> r.value == JStr("Unknown error"))
    ensures r.Ok? <==> body.NoText? || (body.Decoded? && body.value.JObj?)
    ensures r.Err? ==> r.error == MalformedBody
  {
    match body
    case NoText => Ok(JStr("No response"))
    case Decoded(JObj(f)) => Ok(Lookup(f, "detail").GetOr(JStr("Unknown error")))
    case _ => Err(MalformedBody)
  }

  /** The bodies a status-200 reply can have for `process_batch` to succeed on
      these transactions. */
  predicate Accepted(body: Body, txns: seq<Record>) {
    && body.Decoded?
    && match body.value
       case JArr(items) => forall j :: 0 <= j < Min(|txns|, |items|) ==> Complete(items[j])
       case JObj(_) => Min(|txns|, IterLength(body.value)) == 0
       case JStr(_) => Min(|txns|, IterLength(body.value)) == 0
       case _ => false
  }

  /** `process_batch(transactions, batch_id)` given the round trip it made. */
  function ProcessBatch(ex: Exchange, txns: seq<Record>, batchId: int): (r: Result<BatchResult, BatchError>)
    // succeeds exactly on a 200 reply whose body can be zipped with the chunk
    ensures r.Ok? <==> ex.reply.Http? && ex.reply.status == 200 && Accepted(ex.reply.body, txns)
    // the counts and timing of a BatchResult
    ensures r.Ok? ==>
      && r.value.batchId == batchId
      && r.value.totalTransactions == |txns|
      && r.value.successful == |r.value.results| <= |txns|
      && r.value.failed == 0
      && r.value.durationSeconds == ex.duration
      && r.value.throughput == Throughput(|txns|, ex.duration)
    // result i belongs to transaction i and carries the batch's two timestamps
    ensures r.Ok? ==> forall i :: 0 <= i < |r.value.results| ==>
      && r.value.results[i].transactionId == TransactionIdFor(txns[i], batchId, i)
      && r.value.results[i].requestTimestamp == ex.requestedAt
      && r.value.results[i].responseTimestamp == ex.respondedAt
    // a list reply is zipped: one result per pair, carrying response i's five fields
    ensures r.Ok? && ex.reply.body.Decoded? && ex.reply.body.value.JArr? ==>
      var items := ex.reply.body.value.items;
      && |r.value.results| == Min(|txns|, |items|)
      && forall i :: 0 <= i < |r.value.results| ==>
           && items[i].JObj?
           && r.value.results[i].auditHash == Get(items[i].fields, "audit_hash")
           && r.value.results[i].exceptionFlag == Get(items[i].fields, "exception_flag")
           && r.value.results[i].reasonCode == Get(items[i].fields, "reason_code")
           && r.value.results[i].confidence == Get(items[i].fields, "confidence")
           && r.value.results[i].explainabilityFeatures == Lookup(items[i].fields, "explainability_features").GetOr(JObj([]))
    // an accepted body other than a list (an empty dict or string, or any
    // dict or string when the chunk is empty) zips to no results
    ensures r.Ok? && !(ex.reply.body.Decoded? && ex.reply.body.value.JArr?) ==> r.value.results == []
    // a non-200 reply with an empty or dict body names the batch and the status
    ensures ex.reply.Http? && ex.reply.status != 200 && ErrorDetail(ex.reply.body).Ok? ==>
      r == Err(Rejected(batchId, ex.reply.status, ErrorDetail(ex.reply.body).value))
    // a post that raised, and a non-200 body the detail cannot be read from
    ensures ex.reply.Unreachable? ==> r == Err(TransportFailure(ex.reply.reason))
    ensures ex.reply.Http? && ex.reply.status != 200 && ErrorDetail(ex.reply.body).Err? ==> r == Err(MalformedBody)
    ensures r.Err? && r.error.Rejected? ==>
      r.error.batchId == batchId && ex.reply.Http? && r.error.status == ex.reply.status != 200
  {
    match ex.reply
    case Unreachable(reason) => Err(TransportFailure(reason))
    case Http(status, body) =>
      if status != 200 then
        match ErrorDetail(body)
        case Ok(detail) => Err(Rejected(batchId, status, detail))
        case Err(e) => Err(e)
      else
        match ResultsFromBody(body, txns, batchId, ex.requestedAt, ex.respondedAt)
        case Err(e) => Err(e)
        case Ok(results) =>
          Ok(BatchResult(batchId, |txns|, |results|, 0, results, ex.duration, Throughput(|txns|, ex.duration)))
  }
}

=== FILE: canonical.dfy ===
/** The serialisation the audit hash is computed over: Python's
    `json.dumps(data, sort_keys=True)` with its default separators (", " and
    ": ") and `ensure_ascii=True`. Dict keys are sorted by code point at every
    nesting level, so the text depends on a dict's contents, not on the order
    its keys were inserted in; `EquivSerialize` proves it. */
module Canonical {
  import opened Basics
  import opened JsonValue

  // ---------------------------------------------------------------------------
  // The order Python's `sorted` uses on `str` keys
  // ---------------------------------------------------------------------------

  /** `a < b` on Python strings: lexicographic by code point, a proper prefix
      sorting first. */
  predicate StrLt(a: string, b: string)
    decreases |a|
  {
    |b| > 0 && (|a| == 0 || a[0] < b[0] || (a[0] == b[0] && StrLt(a[1..], b[1..])))
  }

  lemma {:induction false} StrLtIrreflexive(a: string)
    ensures !StrLt(a, a)
    decreases |a|
  {
    if |a| > 0 {
      StrLtIrreflexive(a[1..]);
    }
  }

  lemma {:induction false} StrLtTransitive(a: string, b: string, c: string)
    requires StrLt(a, b) && StrLt(b, c)
    ensures StrLt(a, c)
    decreases |a|
  {
    if |a| > 0 && a[0] == b[0] && b[0] == c[0] {
      StrLtTransitive(a[1..], b[1..], c[1..]);
    }
  }

  lemma {:induction false} StrLtTotal(a: string, b: string)
    requires a != b
    ensures StrLt(a, b) || StrLt(b, a)
    decreases |a|
  {
    if |a| > 0 && |b| > 0 && a[0] == b[0] {
      assert a[1..] != b[1..] by {
        assert a == [a[0]] + a[1..] && b == [b[0]] + b[1..];
      }
      StrLtTotal(a[1..], b[1..]);
    }
  }

  lemma StrLtAsymmetric(a: string, b: string)
    requires StrLt(a, b)
    ensures !StrLt(b, a)
  {
    if StrLt(b, a) {
      StrLtTransitive(a, b, a);
      StrLtIrreflexive(a);
    }
  }

  // ---------------------------------------------------------------------------
  // Sorting a dict's members by key
  // ---------------------------------------------------------------------------

  /** A dict member after its value has been serialised: key and value text. */
  type Member = (string, string)

  /** Keys strictly increase: the members are sorted and no key repeats. */
  predicate Ordered(ms: seq<Member>) {
    forall i, j :: 0 <= i < j < |ms| ==> StrLt(ms[i].0, ms[j].0)
  }

  /** Insert one member in front of the first member whose key is not smaller. */
  function Insert(x: Member, ms: seq<Member>): (r: seq<Member>)
    ensures |r| == |ms| + 1
    ensures forall y :: y in r <==> y == x || y in ms
  {
    if |ms| == 0 || !StrLt(ms[0].0, x.0) then [x] + ms
    else
      var rest := Insert(x, ms[1..]);
      assert ms == [ms[0]] + ms[1..];
      [ms[0]] + rest
  }

  /** `sorted(d.items())`: the members of a dict in key order. */
  function SortByKey(ms: seq<Member>): (r: seq<Member>)
    ensures |r| == |ms|
    ensures forall y :: y in r <==> y in ms
  {
    if |ms| == 0 then []
    else
      assert ms == [ms[0]] + ms[1..];
      Insert(ms[0], SortByKey(ms[1..]))
  }

  lemma {:induction false} InsertOrdered(x: Member, ms: seq<Member>)
    requires Ordered(ms)
    requires forall y :: y in ms ==> y.0 != x.0
    ensures Ordered(Insert(x, ms))
  {
    var r := Insert(x, ms);
    if |ms| == 0 {
    } else if !StrLt(ms[0].0, x.0) {
      StrLtTotal(x.0, ms[0].0);
      forall j | 0 < j < |r|
        ensures StrLt(r[0].0, r[j].0)
      {
        if j > 1 {
          StrLtTransitive(x.0, ms[0].0, ms[j - 1].0);
        }
      }
    } else {
      var rest := Insert(x, ms[1..]);
      InsertOrdered(x, ms[1..]);
      forall j | 0 < j < |r|
        ensures StrLt(r[0].0, r[j].0)
      {
        assert r[j] in rest;
      }
    }
  }

  /** Sorting a dict's members leaves them strictly ordered by key. */
  lemma {:induction false} SortOrdered(ms: seq<Member>)
    requires DistinctKeys(ms)
    ensures Ordered(SortByKey(ms))
  {
    if |ms| > 0 {
      assert DistinctKeys(ms[1..]);
      SortOrdered(ms[1..]);
      forall y | y in SortByKey(ms[1..])
        ensures y.0 != ms[0].0
      {
        var i :| 0 <= i < |ms[1..]| && ms[1..][i] == y;
        assert ms[i + 1] == y;
      }
      InsertOrdered(ms[0], SortByKey(ms[1..]));
    }
  }

  /** Two strictly ordered member lists with the same members are identical:
      the sorted form of a dict does not depend on how it was built. */
  lemma {:induction false} OrderedUnique(a: seq<Member>, b: seq<Member>)
    requires Ordered(a) && Ordered(b)
    requires forall x :: x in a <==> x in b
    ensures a == b
    decreases |a|
  {
    if |a| == 0 {
      if |b| == 0 {
        assert a == [] && b == [];
      } else {
        FirstIsMember(b);
        assert false;
      }
    } else {
      assert a[0] in b;
      assert |b| > 0;
      var j :| 0 <= j < |b| && b[j] == a[0];
      assert b[0] in a;
      var i :| 0 <= i < |a| && a[i] == b[0];
      if j > 0 {
        if i > 0 {
          StrLtAsymmetric(a[0].0, a[i].0);
        } else {
          StrLtIrreflexive(b[0].0);
        }
        assert false;
      }
      forall x
        ensures x in a[1..] <==> x in b[1..]
      {
        OrderedTail(a, x);
        OrderedTail(b, x);
      }
      OrderedUnique(a[1..], b[1..]);
      assert a == [a[0]] + a[1..] && b == [b[0]] + b[1..];
    }
  }

  lemma FirstIsMember(b: seq<Member>)
    requires |b| > 0
    ensures b[0] in b
  {
  }

  /** The tail of an ordered list holds every member except the first. */
  lemma OrderedTail(a: seq<Member>, x: Member)
    requires Ordered(a) && |a| > 0
    ensures x in a[1..] <==> x in a && x != a[0]
  {
    if x in a[1..] {
      var i :| 0 <= i < |a[1..]| && a[1..][i] == x;
      assert StrLt(a[0].0, a[i + 1].0);
      if x == a[0] {
        StrLtIrreflexive(a[0].0);
      }
    }
    if x in a && x != a[0] {
      var i :| 0 <= i < |a| && a[i] == x;
      assert a[1..][i - 1] == x;
    }
  }

  // ---------------------------------------------------------------------------
  // String escaping with ensure_ascii=True
  // ---------------------------------------------------------------------------

  /** One character as `json.dumps` writes it inside quotes: printable ASCII
      other than '"' and '\' as is, the six short escapes, and every other
      code point as `\uXXXX` (a UTF-16 surrogate pair above U+FFFF). */
  function EscapeChar(c: char): (r: string)
    ensures |r| >= 1
    // the output is printable ASCII whatever the input
    ensures forall i :: 0 <= i < |r| ==> ' ' <= r[i] <= '~'
    // only printable ASCII other than the quote and the backslash stands for itself
    ensures r == [c] <==> ' ' <= c <= '~' && c != '"' && c != '\\'
  {
    if c == '"' then "\\\""
    else if c == '\\' then "\\\\"
    else if c as int == 0x08 then "\\b"
    else if c as int == 0x0C then "\\f"
    else if c == '\n' then "\\n"
    else if c == '\r' then "\\r"
    else if c == '\t' then "\\t"
    else if ' ' <= c <= '~' then [c]
    else if c as int < 0x1_0000 then "\\u" + Hex4(c as int)
    else
      var n := c as int - 0x1_0000;
      "\\u" + Hex4(0xD800 + n / 0x400) + "\\u" + Hex4(0xDC00 + n % 0x400)
  }

  /** The body of a JSON string literal for `s`. */
  function Escape(s: string): (r: string)
    ensures |r| >= |s|
    ensures forall i :: 0 <= i < |r| ==> ' ' <= r[i] <= '~'
    decreases |s|
  {
    if |s| == 0 then "" else EscapeChar(s[0]) + Escape(s[1..])
  }

  /** A JSON string literal. */
  function Quote(s: string): string {
    "\"" + Escape(s) + "\""
  }

  // ---------------------------------------------------------------------------
  // Serialisation
  // ---------------------------------------------------------------------------

  /** `sep.join(parts)`. */
  function Join(parts: seq<string>, sep: string): string
    decreases |parts|
  {
    if |parts| == 0 then ""
    else if |parts| == 1 then parts[0]
    else parts[0] + sep + Join(parts[1..], sep)
  }

  /** `"key": value` for each member, in the given order. */
  function MemberTexts(ms: seq<Member>): seq<string> {
    seq(|ms|, i requires 0 <= i < |ms| => Quote(ms[i].0) + ": " + ms[i].1)
  }

  /** The members of a dict with their values serialised, in insertion order. */
  function SerializedMembers(fields: Record, floatRepr: real -> string): (ms: seq<Member>)
    ensures |ms| == |fields|
    ensures forall i :: 0 <= i < |fields| ==> ms[i].0 == fields[i].0
    decreases JObj(fields), 0
  {
    seq(|fields|, i requires 0 <= i < |fields| => (fields[i].0, Serialize(fields[i].1, floatRepr)))
  }

  /** `json.dumps(v, sort_keys=True)`. `floatRepr` stands for Python's
      `float.__repr__`, which this model does not reproduce. */
  function Serialize(v: Json, floatRepr: real -> string): (r: string)
    ensures v.JInt? ==> IntValue(r) == v.i
    ensures v.JStr? ==> |r| >= 2 && r[0] == '"' && r[|r| - 1] == '"'
    ensures v.JArr? ==> |r| >= 2 && r[0] == '[' && r[|r| - 1] == ']'
    ensures v.JObj? ==> |r| >= 2 && r[0] == '{' && r[|r| - 1] == '}'
    decreases v, 1
  {
    match v
    case JNull => "null"
    case JBool(b) => if b then "true" else "false"
    case JInt(i) => IntToStringRoundTrip(i); IntToString(i)
    case JFloat(f) => floatRepr(f)
    case JStr(s) => Quote(s)
    case JArr(items) =>
      "[" + Join(seq(|items|, i requires 0 <= i < |items| => Serialize(items[i], floatRepr)), ", ") + "]"
    case JObj(fields) =>
      "{" + Join(MemberTexts(SortByKey(SerializedMembers(fields, floatRepr))), ", ") + "}"
  }

  /** A dict is written as its members in ascending key order, `"key": value`
      separated by ", " inside braces. */
  lemma SerializeSorted(fields: Record, floatRepr: real -> string)
    requires DistinctKeys(fields)
    ensures exists ms ::
      && Ordered(ms)
      && (forall x :: x in ms <==> x in SerializedMembers(fields, floatRepr))
      && Serialize(JObj(fields), floatRepr) == "{" + Join(MemberTexts(ms), ", ") + "}"
  {
    SortOrdered(SerializedMembers(fields, floatRepr));
  }

  // ---------------------------------------------------------------------------
  // Independence from key order
  // ---------------------------------------------------------------------------

  /** Two dicts with the same members serialise identically, whatever order
      their keys were inserted in. */
  lemma KeyOrderIrrelevant(fa: Record, fb: Record, floatRepr: real -> string)
    requires DistinctKeys(fa) && DistinctKeys(fb)
    requires forall x :: x in fa <==> x in fb
    ensures Serialize(JObj(fa), floatRepr) == Serialize(JObj(fb), floatRepr)
  {
    var ma := SerializedMembers(fa, floatRepr);
    var mb := SerializedMembers(fb, floatRepr);
    forall x | x in ma
      ensures x in mb
    {
      var i :| 0 <= i < |ma| && ma[i] == x;
      var j :| 0 <= j < |fb| && fb[j] == fa[i] by {
        assert fa[i] in fb;
      }
      assert mb[j] == x;
    }
    forall x | x in mb
      ensures x in ma
    {
      var j :| 0 <= j < |mb| && mb[j] == x;
      var i :| 0 <= i < |fa| && fa[i] == fb[j] by {
        assert fb[j] in fa;
      }
      assert ma[i] == x;
    }
    SortedSame(ma, mb);
  }

  /** Sorting two duplicate-free member lists with the same members gives the
      same list. */
  lemma SortedSame(ma: seq<Member>, mb: seq<Member>)
    requires DistinctKeys(ma) && DistinctKeys(mb)
    requires forall x :: x in ma <==> x in mb
    ensures SortByKey(ma) == SortByKey(mb)
  {
    SortOrdered(ma);
    SortOrdered(mb);
    OrderedUnique(SortByKey(ma), SortByKey(mb));
  }

  /** Values equal up to key order serialise identically: dicts at every
      nesting level may list their keys in any order. */
  lemma {:induction false} EquivSerialize(a: Json, b: Json, floatRepr: real -> string)
    requires Equiv(a, b)
    ensures Serialize(a, floatRepr) == Serialize(b, floatRepr)
    decreases a, 2
  {
    match a
    case JArr(xs) => EquivSerializeItems(xs, b.items, floatRepr);
    case JObj(fa) => EquivSerializeFields(fa, b.fields, floatRepr);
    case _ =>
  }

  /** The list case of `EquivSerialize`. */
  lemma {:induction false} EquivSerializeItems(xs: seq<Json>, ys: seq<Json>, floatRepr: real -> string)
    requires Equiv(JArr(xs), JArr(ys))
    ensures Serialize(JArr(xs), floatRepr) == Serialize(JArr(ys), floatRepr)
    decreases JArr(xs), 1
  {
    var ta := seq(|xs|, i requires 0 <= i < |xs| => Serialize(xs[i], floatRepr));
    var tb := seq(|ys|, i requires 0 <= i < |ys| => Serialize(ys[i], floatRepr));
    forall i | 0 <= i < |xs|
      ensures ta[i] == tb[i]
    {
      EquivSerialize(xs[i], ys[i], floatRepr);
    }
    assert ta == tb;
  }

  /** The dict case of `EquivSerialize`. */
  lemma {:induction false} EquivSerializeFields(fa: Record, fb: Record, floatRepr: real -> string)
    requires Equiv(JObj(fa), JObj(fb))
    ensures Serialize(JObj(fa), floatRepr) == Serialize(JObj(fb), floatRepr)
    decreases JObj(fa), 1
  {
    var ma := SerializedMembers(fa, floatRepr);
    var mb := SerializedMembers(fb, floatRepr);
    forall x | x in ma
      ensures x in mb
    {
      var i :| 0 <= i < |ma| && ma[i] == x;
      MemberHasPartner(fa, fb, i, floatRepr);
    }
    forall x | x in mb
      ensures x in ma
    {
      var j :| 0 <= j < |mb| && mb[j] == x;
      PartnerHasMember(fa, fb, j, floatRepr);
    }
    SortedSame(ma, mb);
  }

  /** Each serialised member of the left dict reappears on the right. */
  lemma {:induction false} MemberHasPartner(fa: Record, fb: Record, i: nat, floatRepr: real -> string)
    requires Equiv(JObj(fa), JObj(fb))
    requires i < |fa|
    ensures SerializedMembers(fa, floatRepr)[i] in SerializedMembers(fb, floatRepr)
    decreases JObj(fa), 0
  {
    var k := fa[i].0;
    var v := Lookup(fb, k).value;
    var j :| 0 <= j < |fb| && fb[j] == (k, v);
    EquivSerialize(fa[i].1, v, floatRepr);
    assert SerializedMembers(fb, floatRepr)[j] == SerializedMembers(fa, floatRepr)[i];
  }

  /** Each serialised member of the right dict reappears on the left. */
  lemma {:induction false} PartnerHasMember(fa: Record, fb: Record, j: nat, floatRepr: real -> string)
    requires Equiv(JObj(fa), JObj(fb))
    requires j < |fb|
    ensures SerializedMembers(fb, floatRepr)[j] in SerializedMembers(fa, floatRepr)
    decreases JObj(fa), 0
  {
    var k := fb[j].0;
    var i :| 0 <= i < |fa| && fa[i].0 == k;
    assert Get(fb, k) == fb[j].1 by {
      assert (k, fb[j].1) in fb;
    }
    EquivSerialize(fa[i].1, fb[j].1, floatRepr);
    assert SerializedMembers(fa, floatRepr)[i] == SerializedMembers(fb, floatRepr)[j];
  }
}

=== FILE: client.dfy ===
/** `KoshaClient.reconcile_batch` (sdks/python/kosha_client.py): the client
    hands its own, unclamped settings to a fresh `BatchProcessor` and runs
    `process_all` on it. */
module Client {
  import opened Basics
  import opened JsonValue
  import opened Audit
  import opened Batch
  import opened Processor
  import opened ProcessorProps

  /** The settings `KoshaClient(api_url, batch_size, max_retries, timeout)`
      keeps for bulk work; the URL and the HTTP session belong to the
      transport. */
  datatype KoshaClient = KoshaClient(batchSize: int, maxRetries: int, timeout: int)

  /** The processor `reconcile_batch` builds from the client's settings. */
  function ProcessorFor(client: KoshaClient, hasProgressCallback: bool): (p: Processor)
    ensures p.batchSize == Min(client.batchSize, MaxBatchSize)
    ensures p.maxRetries == client.maxRetries && p.timeout == client.timeout
    ensures p.hasProgressCallback == hasProgressCallback
  {
    NewProcessor(client.batchSize, client.maxRetries, client.timeout, hasProgressCallback)
  }

  /** `reconcile_batch(transactions, validate_audit_hash, progress_callback)`:
      the run is exactly `process_all` on the processor built from the
      client's settings, with the validation flag and the callback passed
      on unchanged; a chunk size of 0 raises; a positive one posts the
      input in order in chunks of `min(batch_size, 5000)` records, the
      last possibly shorter. */
  function ReconcileBatch(client: KoshaClient, send: Transport, txns: seq<Record>, validate: bool,
                          hasProgressCallback: bool, prims: Primitives, totalTime: real): (r: Result<Run, RunError>)
    ensures r == ProcessAllSpec(ProcessorFor(client, hasProgressCallback), send, txns, validate, prims, totalTime)
    ensures r.Err? <==> client.batchSize == 0
    ensures client.batchSize > 0 ==>
      var size := Min(client.batchSize, MaxBatchSize);
      && Flatten(r.value.sent) == txns
      && (forall k :: 0 <= k < |r.value.sent| ==>
            r.value.sent[k].batchId == k + 1 && 1 <= |r.value.sent[k].records| <= size)
      && (forall k :: 0 <= k < |r.value.sent| - 1 ==> |r.value.sent[k].records| == size)
    ensures client.batchSize < 0 ==> r.value.sent == [] && r.value.summary.failed == |txns|
  {
    var p := ProcessorFor(client, hasProgressCallback);
    if p.batchSize > 0 then
      ProcessAllChunks(p, Poster(send), txns, validate, AuditCheck(prims), totalTime);
      ProcessAllSpec(p, send, txns, validate, prims, totalTime)
    else
      ProcessAllSpec(p, send, txns, validate, prims, totalTime)
  }

  /** A client asking for more than 5000 per chunk still sends full chunks
      of exactly 5000. */
  lemma ClampApplied(client: KoshaClient, send: Transport, txns: seq<Record>, validate: bool,
                     hasProgressCallback: bool, prims: Primitives, totalTime: real)
    requires client.batchSize > MaxBatchSize && |txns| > MaxBatchSize
    ensures var sent := ReconcileBatch(client, send, txns, validate, hasProgressCallback, prims, totalTime).value.sent;
      |sent| >= 2 && |sent[0].records| == MaxBatchSize
  {
    var sent := ReconcileBatch(client, send, txns, validate, hasProgressCallback, prims, totalTime).value.sent;
    FlattenBound(sent, MaxBatchSize);
  }
}

=== FILE: json_value.dfy ===
/** The JSON-shaped values the client exchanges with the server: transactions,
    response records and audit data are Python dicts of such values. A dict is
    modelled as an association list in insertion order, so that key order is
    visible in the model and independence from it has to be proved. */
module JsonValue {
  import opened Basics

  /** A decoded JSON value (Python `None`, `bool`, `int`, `float`, `str`,
      `list`, `dict`). Floats are exact reals; their text form is supplied
      separately (see `Canonical.Serialize`). */
  datatype Json =
    | JNull
    | JBool(b: bool)
    | JInt(i: int)
    | JFloat(f: real)
    | JStr(s: string)
    | JArr(items: seq<Json>)
    | JObj(fields: seq<(string, Json)>)

  /** A Python dict with string keys, in insertion order. */
  type Record = seq<(string, Json)>

  predicate HasKey<V>(fs: seq<(string, V)>, k: string) {
    exists i :: 0 <= i < |fs| && fs[i].0 == k
  }

  /** Python dicts never repeat a key. */
  predicate DistinctKeys<V>(fs: seq<(string, V)>) {
    forall i, j :: 0 <= i < j < |fs| ==> fs[i].0 != fs[j].0
  }

  /** `k in d and d[k]`: the value stored under `k`, the first one if an
      association list repeats it. */
  function Lookup(fs: Record, k: string): (r: Option<Json>)
    ensures r.Some? ==> (k, r.value) in fs
    ensures DistinctKeys(fs) ==> forall v :: (k, v) in fs ==> r == Some(v)
  {
    if |fs| == 0 then None
    else if fs[0].0 == k then Some(fs[0].1)
    else Lookup(fs[1..], k)
  }

  /** A key is found exactly when some entry carries it. */
  lemma {:induction false} LookupFound(fs: Record, k: string)
    ensures Lookup(fs, k).Some? <==> HasKey(fs, k)
    decreases |fs|
  {
    if |fs| > 0 && fs[0].0 != k {
      LookupFound(fs[1..], k);
      assert HasKey(fs, k) ==> HasKey(fs[1..], k) by {
        if HasKey(fs, k) {
          var i :| 0 <= i < |fs| && fs[i].0 == k;
          assert fs[1..][i - 1].0 == k;
        }
      }
      assert HasKey(fs[1..], k) ==> HasKey(fs, k) by {
        if HasKey(fs[1..], k) {
          var i :| 0 <= i < |fs[1..]| && fs[1..][i].0 == k;
          assert fs[i + 1].0 == k;
        }
      }
    } else if |fs| > 0 {
      assert fs[0].0 == k;
    }
  }

  /** `d.get(k)`: the stored value, or `None` when the key is absent. */
  function Get(fs: Record, k: string): Json {
    Lookup(fs, k).GetOr(JNull)
  }

  /** `{**d, k: v}`: a present key keeps its position and takes the new value;
      an absent key is appended at the end. */
  function Override(fs: Record, k: string, v: Json): (r: Record)
    ensures Lookup(r, k) == Some(v)
    ensures forall k2 :: k2 != k ==> Lookup(r, k2) == Lookup(fs, k2)
    ensures HasKey(fs, k) ==> |r| == |fs| && forall i :: 0 <= i < |fs| ==> r[i].0 == fs[i].0
    ensures !HasKey(fs, k) ==> r == fs + [(k, v)]
  {
    if |fs| == 0 then [(k, v)]
    else if fs[0].0 == k then [(k, v)] + fs[1..]
    else
      var rest := Override(fs[1..], k, v);
      var r := [fs[0]] + rest;
      assert r[1..] == rest;
      assert HasKey(fs, k) <==> HasKey(fs[1..], k) by {
        assert Lookup(fs, k) == Lookup(fs[1..], k);
      }
      r
  }

  /** On a genuine dict, `{**d, k: v}` holds exactly the pairs of `d` whose key
      is not `k`, plus `(k, v)`, and still repeats no key. */
  lemma {:induction false} OverrideMembers(fs: Record, k: string, v: Json)
    requires DistinctKeys(fs)
    ensures DistinctKeys(Override(fs, k, v))
    ensures forall x :: x in Override(fs, k, v) <==> x == (k, v) || (x in fs && x.0 != k)
  {
    var r := Override(fs, k, v);
    if HasKey(fs, k) {
      var p :| 0 <= p < |fs| && fs[p].0 == k;
      SameKeysDistinct(fs, r);
      ReplacedMembers(fs, k, v, p);
    } else {
      assert r == fs + [(k, v)];
      assert forall i :: 0 <= i < |fs| ==> fs[i].0 != k;
    }
  }

  lemma SameKeysDistinct(fs: Record, r: Record)
    requires DistinctKeys(fs)
    requires |r| == |fs| && forall i :: 0 <= i < |fs| ==> r[i].0 == fs[i].0
    ensures DistinctKeys(r)
  {
  }

  /** The membership half of `OverrideMembers` when the key is already present at `p`. */
  lemma ReplacedMembers(fs: Record, k: string, v: Json, p: nat)
    requires DistinctKeys(fs)
    requires p < |fs| && fs[p].0 == k
    ensures forall x :: x in Override(fs, k, v) <==> x == (k, v) || (x in fs && x.0 != k)
  {
    var r := Override(fs, k, v);
    assert HasKey(fs, k);
    forall i | 0 <= i < |fs|
      ensures |r| == |fs| && r[i] == if i == p then (k, v) else fs[i]
    {
      OverrideAt(fs, k, v, i);
    }
    forall x | x in r
      ensures x == (k, v) || (x in fs && x.0 != k)
    {
      var i :| 0 <= i < |r| && r[i] == x;
    }
    forall x | x == (k, v) || (x in fs && x.0 != k)
      ensures x in r
    {
      if x == (k, v) {
        assert r[p] == x;
      } else {
        var i :| 0 <= i < |fs| && fs[i] == x;
        assert r[i] == x;
      }
    }
  }

  /** `{**d, k: v}` changes a genuine dict only at the position holding `k`. */
  lemma {:induction false} OverrideAt(fs: Record, k: string, v: Json, i: nat)
    requires DistinctKeys(fs)
    requires HasKey(fs, k)
    requires i < |fs|
    ensures |Override(fs, k, v)| == |fs|
    ensures fs[i].0 == k ==> Override(fs, k, v)[i] == (k, v)
    ensures fs[i].0 != k ==> Override(fs, k, v)[i] == fs[i]
    decreases i
  {
    if fs[0].0 != k {
      assert HasKey(fs[1..], k) by {
        var p :| 0 <= p < |fs| && fs[p].0 == k;
        assert fs[1..][p - 1].0 == k;
      }
      if i > 0 {
        OverrideAt(fs[1..], k, v, i - 1);
      }
    } else if i > 0 {
      assert fs[i].0 != k;
    }
  }

  /** Python truthiness: `None`, `False`, zero, and empty strings, lists and
      dicts are false; everything else is true. */
  predicate Truthy(v: Json) {
    match v
    case JNull => false
    case JBool(b) => b
    case JInt(i) => i != 0
    case JFloat(f) => f != 0.0
    case JStr(s) => |s| > 0
    case JArr(items) => |items| > 0
    case JObj(fields) => |fields| > 0
  }

  /** Equality up to the key order of dicts: lists element by element in
      order, dicts by their sets of keys and the values stored under them,
      whatever order the keys were inserted in, and scalars identical (so,
      unlike Python's `==`, `1` and `1.0` or `1` and `true` differ). Both
      sides must be genuine dicts (no repeated key). */
  predicate Equiv(a: Json, b: Json)
    decreases a
  {
    match a
    case JArr(xs) =>
      && b.JArr?
      && |xs| == |b.items|
      && forall i :: 0 <= i < |xs| ==> Equiv(xs[i], b.items[i])
    case JObj(fa) =>
      && b.JObj?
      && DistinctKeys(fa)
      && DistinctKeys(b.fields)
      && (forall i :: 0 <= i < |fa| ==> HasKey(b.fields, fa[i].0) && Equiv(fa[i].1, Get(b.fields, fa[i].0)))
      && (forall j :: 0 <= j < |b.fields| ==> HasKey(fa, b.fields[j].0))
    case _ => a == b
  }
}

=== FILE: processor.dfy ===
/** `BatchProcessor` (sdks/python/kosha_client.py): the chunk-size clamp of its
    constructor and `process_all`, which cuts the input into consecutive
    chunks, posts them one after another through `process_batch`, and gathers
    results, failures, progress reports and audit warnings into a summary. */
module Processor {
  import opened Basics
  import opened JsonValue
  import opened Audit
  import opened Batch

  /** The largest chunk the processor ever sends. */
  const MaxBatchSize: int := 5000

  /** The configuration `process_all` depends on. The API URL, retry count and
      timeout only configure the transport, which is a parameter here. */
  datatype Processor = Processor(batchSize: int, maxRetries: int, timeout: int, hasProgressCallback: bool)

  /** `BatchProcessor(api_url, batch_size, max_retries, timeout, progress_callback)`. */
  function NewProcessor(batchSize: int, maxRetries: int, timeout: int, hasProgressCallback: bool): (p: Processor)
    ensures p.batchSize <= MaxBatchSize && p.batchSize <= batchSize
    ensures p.batchSize == batchSize || p.batchSize == MaxBatchSize
    ensures p.maxRetries == maxRetries && p.timeout == timeout
    ensures p.hasProgressCallback == hasProgressCallback
  {
    Processor(Min(batchSize, MaxBatchSize), maxRetries, timeout, hasProgressCallback)
  }

  /** One slice `transactions[i : i + batch_size]`, its offset `i` and its
      `batch_id`. */
  datatype Chunk = Chunk(batchId: int, start: nat, records: seq<Record>)

  /** The chunks of `for i in range(start, len(s), size)`. */
  function ChunksFrom(s: seq<Record>, size: nat, start: nat): seq<Chunk>
    requires size >= 1
    decreases |s| - start
  {
    if start >= |s| then []
    else [Chunk(start / size + 1, start, s[start..Min(start + size, |s|)])] + ChunksFrom(s, size, start + size)
  }

  /** The records of a list of chunks, in order. */
  function Flatten(cs: seq<Chunk>): seq<Record> {
    if |cs| == 0 then [] else cs[0].records + Flatten(cs[1..])
  }

  lemma FlattenCons(c: Chunk, cs: seq<Chunk>)
    ensures Flatten([c] + cs) == c.records + Flatten(cs)
  {
    assert ([c] + cs)[1..] == cs;
  }

  /** Chunks of at most `bound` records hold at most `|cs| * bound` in all. */
  lemma {:induction false} FlattenBound(cs: seq<Chunk>, bound: nat)
    requires forall k :: 0 <= k < |cs| ==> |cs[k].records| <= bound
    ensures |Flatten(cs)| <= |cs| * bound
    decreases |cs|
  {
    if |cs| > 0 {
      FlattenBound(cs[1..], bound);
      assert |cs| * bound == bound + (|cs| - 1) * bound;
    }
  }

  /** The chunks put back together give the input from `start` on. */
  lemma {:induction false} ChunksFlatten(s: seq<Record>, size: nat, start: nat)
    requires size >= 1 && start <= |s|
    ensures Flatten(ChunksFrom(s, size, start)) == s[start..]
    decreases |s| - start
  {
    if start < |s| {
      var e := Min(start + size, |s|);
      var c := Chunk(start / size + 1, start, s[start..e]);
      var rest := ChunksFrom(s, size, start + size);
      FlattenCons(c, rest);
      if start + size <= |s| {
        ChunksFlatten(s, size, start + size);
        assert s[start..e] + s[e..] == s[start..];
      } else {
        assert Flatten(rest) == [];
        assert s[start..e] == s[start..];
      }
    }
  }

  lemma MulAtLeast(a: int, size: nat)
    requires a >= 1 && size >= 1
    ensures a * size >= size
  {
  }

  /** `(m * size + j) // size == m` and the remainder is `j`, for `j < size`. */
  lemma DivMod(m: nat, size: nat, j: nat)
    requires size >= 1 && j < size
    ensures (m * size + j) / size == m
    ensures (m * size + j) % size == j
  {
    var p := m * size + j;
    var q, r := p / size, p % size;
    assert p == q * size + r;
    var d := q - m;
    assert d * size == j - r by {
      assert q * size == m * size + d * size;
    }
    if d >= 1 {
      MulAtLeast(d, size);
    }
  }

  /** `c` is chunk number `k` (counting from 0) of `s`: it has id `k + 1`,
      starts at `k * size` and holds the next `size` records, or what is left
      of `s` if fewer, and never none. */
  predicate ChunkAt(s: seq<Record>, size: nat, c: Chunk, k: nat) {
    && c.batchId == k + 1
    && c.start == k * size < |s|
    && c.records == s[k * size..Min(k * size + size, |s|)]
    && |c.records| >= 1
  }

  /** Chunk `k` from offset `start == m * size` on is chunk number `m + k`,
      and it is full unless it is the last. */
  lemma {:induction false} ChunkShape(s: seq<Record>, size: nat, m: nat, start: nat, k: nat)
    requires size >= 1 && start == m * size <= |s|
    requires k < |ChunksFrom(s, size, start)|
    ensures ChunkAt(s, size, ChunksFrom(s, size, start)[k], m + k)
    ensures k < |ChunksFrom(s, size, start)| - 1 ==> |ChunksFrom(s, size, start)[k].records| == size
    decreases k
  {
    var cs := ChunksFrom(s, size, start);
    var next := start + size;
    var rest := ChunksFrom(s, size, next);
    assert cs == [cs[0]] + rest;
    if k == 0 {
      DivMod(m, size, 0);
      assert |rest| > 0 ==> next < |s|;
    } else {
      assert next == (m + 1) * size <= |s|;
      ChunkShape(s, size, m + 1, next, k - 1);
      assert cs[k] == rest[k - 1];
      assert m + 1 + (k - 1) == m + k;
    }
  }

  /** One more chunk of `size` records keeps `n` the ceiling of `len / size`. */
  lemma CountStep(r: int, size: int, len: int)
    requires size >= 1
    requires r * size >= len - size
    requires (r - 1) * size < len - size
    ensures (r + 1) * size >= len
    ensures r * size < len
  {
    assert (r + 1) * size == r * size + size;
    assert (r - 1) * size == r * size - size;
  }

  /** There are `ceil((|s| - start) / size)` chunks: the two inequalities
      below pin that number down. */
  lemma {:induction false} ChunksCount(s: seq<Record>, size: nat, start: nat)
    requires size >= 1
    ensures var n := |ChunksFrom(s, size, start)|;
      && n * size >= |s| - start
      && (start < |s| ==> (n - 1) * size < |s| - start)
    decreases |s| - start
  {
    if start < |s| {
      var rest := ChunksFrom(s, size, start + size);
      assert |ChunksFrom(s, size, start)| == |rest| + 1;
      if start + size < |s| {
        ChunksCount(s, size, start + size);
        CountStep(|rest|, size, |s| - start);
      } else {
        assert rest == [];
      }
    }
  }

  /** The chunks of `process_all` for a positive chunk size. */
  function Chunks(s: seq<Record>, size: nat): seq<Chunk>
    requires size >= 1
  {
    ChunksFrom(s, size, 0)
  }

  /** The partition `process_all` makes of its input. */
  lemma ChunksPartition(s: seq<Record>, size: nat)
    requires size >= 1
    ensures Flatten(Chunks(s, size)) == s
    ensures |Chunks(s, size)| * size >= |s|
    ensures |s| > 0 ==> (|Chunks(s, size)| - 1) * size < |s|
    ensures var cs := Chunks(s, size);
      forall k :: 0 <= k < |cs| ==>
        && ChunkAt(s, size, cs[k], k)
        && (k < |cs| - 1 ==> |cs[k].records| == size)
  {
    ChunksFlatten(s, size, 0);
    ChunksCount(s, size, 0);
    var cs := Chunks(s, size);
    forall k | 0 <= k < |cs|
      ensures ChunkAt(s, size, cs[k], k)
      ensures k < |cs| - 1 ==> |cs[k].records| == size
    {
      ChunkShape(s, size, 0, 0, k);
    }
  }

  /** `{"batch_id": batch_id, "error": str(e)}`; the exception itself stands
      for its message. */
  datatype FailedBatch = FailedBatch(batchId: int, error: BatchError)

  /** The printed "Batch {batch_id} has {n} invalid audit hashes" warning,
      with the transaction ids it counted. */
  datatype Warning = Warning(batchId: int, invalidIds: seq<Json>)

  /** One `progress_callback(current, total)` call. */
  datatype Progress = Progress(current: int, total: int)

  /** What a run of chunks produces, in order: the collected results, the
      failed-batch entries, the progress calls, the audit warnings, and the
      chunks that were posted. */
  datatype Trace = Trace(
    results: seq<TransactionResult>,
    failedBatches: seq<FailedBatch>,
    progress: seq<Progress>,
    warnings: seq<Warning>,
    sent: seq<Chunk>)

  const NoTrace: Trace := Trace([], [], [], [], [])

  /** Running one sequence of chunks after another. */
  function Then(a: Trace, b: Trace): Trace {
    Trace(a.results + b.results, a.failedBatches + b.failedBatches, a.progress + b.progress,
      a.warnings + b.warnings, a.sent + b.sent)
  }

  lemma ThenAssoc(a: Trace, b: Trace, c: Trace)
    ensures Then(Then(a, b), c) == Then(a, Then(b, c))
  {
    assert (a.results + b.results) + c.results == a.results + (b.results + c.results);
    assert (a.failedBatches + b.failedBatches) + c.failedBatches == a.failedBatches + (b.failedBatches + c.failedBatches);
    assert (a.progress + b.progress) + c.progress == a.progress + (b.progress + c.progress);
    assert (a.warnings + b.warnings) + c.warnings == a.warnings + (b.warnings + c.warnings);
    assert (a.sent + b.sent) + c.sent == a.sent + (b.sent + c.sent);
  }

  lemma ThenNoTrace(a: Trace)
    ensures Then(a, NoTrace) == a && Then(NoTrace, a) == a
  {
    assert a.results + [] == a.results;
    assert a.failedBatches + [] == a.failedBatches;
    assert a.progress + [] == a.progress;
    assert a.warnings + [] == a.warnings;
    assert a.sent + [] == a.sent;
  }

  /** The HTTP round trip `process_batch(batch, batch_id)` makes, as the
      caller's environment answers it. */
  type Transport = (int, seq<Record>) -> Exchange

  /** The dict `process_all` hands to `validate_result` for one result. */
  function ResultView(t: TransactionResult): Record {
    [("audit_hash", t.auditHash), ("exception_flag", t.exceptionFlag),
     ("reason_code", t.reasonCode), ("confidence", t.confidence)]
  }

  /** A check of one result against the transaction it answers. */
  type Check = (TransactionResult, Record) -> bool

  /** The check `process_all` applies: `validate_result(result_dict, original)`. */
  function AuditCheck(prims: Primitives): Check {
    (t: TransactionResult, original: Record) => ValidateResult(ResultView(t), original, prims)
  }

  /** The `invalid_hashes` list: the ids of the results whose audit hash does
      not check out against the transaction at the same position of the
      chunk, in result order. */
  function InvalidIds(results: seq<TransactionResult>, originals: seq<Record>, check: Check): (ids: seq<Json>)
    requires |results| <= |originals|
    ensures |ids| <= |results|
    decreases |results|
  {
    if |results| == 0 then []
    else
      var n := |results| - 1;
      var init := InvalidIds(results[..n], originals, check);
      if check(results[n], originals[n]) then init else init + [results[n].transactionId]
  }

  /** No id is listed exactly when every result checks out, and every listed
      id belongs to a result that does not. */
  lemma {:induction false} InvalidIdsSpec(results: seq<TransactionResult>, originals: seq<Record>, check: Check)
    requires |results| <= |originals|
    ensures InvalidIds(results, originals, check) == [] <==>
      forall j :: 0 <= j < |results| ==> check(results[j], originals[j])
    ensures forall x :: x in InvalidIds(results, originals, check) ==>
      exists j :: 0 <= j < |results| && !check(results[j], originals[j]) && results[j].transactionId == x
    decreases |results|
  {
    if |results| > 0 {
      var n := |results| - 1;
      var front := results[..n];
      InvalidIdsSpec(front, originals, check);
      assert forall j :: 0 <= j < n ==> front[j] == results[j];
      var ids := InvalidIds(results, originals, check);
      var init := InvalidIds(front, originals, check);
      forall x | x in ids
        ensures exists j :: 0 <= j < |results| && !check(results[j], originals[j]) && results[j].transactionId == x
      {
        if x in init {
          var j :| 0 <= j < n && !check(front[j], originals[j]) && front[j].transactionId == x;
          assert results[j] == front[j];
        } else {
          assert !check(results[n], originals[n]) && results[n].transactionId == x;
        }
      }
    }
  }

  /** The positions of the results that fail the check against the
      transaction at the same position, in ascending order. */
  function Failing(results: seq<TransactionResult>, originals: seq<Record>, check: Check): seq<nat>
    requires |results| <= |originals|
    decreases |results|
  {
    if |results| == 0 then []
    else
      var n := |results| - 1;
      var init := Failing(results[..n], originals, check);
      if check(results[n], originals[n]) then init else init + [n]
  }

  /** `Failing` lists every failing position once, in ascending order. */
  lemma {:induction false} FailingSpec(results: seq<TransactionResult>, originals: seq<Record>, check: Check)
    requires |results| <= |originals|
    ensures var fs := Failing(results, originals, check);
      && (forall k :: 0 <= k < |fs| ==> fs[k] < |results| && !check(results[fs[k]], originals[fs[k]]))
      && (forall k, l :: 0 <= k < l < |fs| ==> fs[k] < fs[l])
      && (forall j :: 0 <= j < |results| && !check(results[j], originals[j]) ==> j in fs)
    decreases |results|
  {
    if |results| > 0 {
      var n := |results| - 1;
      var front := results[..n];
      FailingSpec(front, originals, check);
      assert forall j :: 0 <= j < n ==> front[j] == results[j];
      var init := Failing(front, originals, check);
      assert Failing(results, originals, check) == if check(results[n], originals[n]) then init else init + [n];
    }
  }

  /** The `k`-th listed id is the id of the `k`-th failing result. */
  lemma {:induction false} InvalidIdsAt(results: seq<TransactionResult>, originals: seq<Record>, check: Check)
    requires |results| <= |originals|
    ensures var fs := Failing(results, originals, check);
      && |InvalidIds(results, originals, check)| == |fs|
      && forall k :: 0 <= k < |fs| ==> fs[k] < |results| && InvalidIds(results, originals, check)[k] == results[fs[k]].transactionId
    decreases |results|
  {
    if |results| > 0 {
      var n := |results| - 1;
      var front := results[..n];
      InvalidIdsAt(front, originals, check);
      assert forall j :: 0 <= j < n ==> front[j] == results[j];
    }
  }

  /** `invalid_hashes` is exactly the ids of the failing results in the order
      they came back: every position listed fails, the positions ascend, and
      every failing position is listed. */
  lemma {:induction false} InvalidIdsExact(results: seq<TransactionResult>, originals: seq<Record>, check: Check)
    requires |results| <= |originals|
    ensures var fs := Failing(results, originals, check);
      && |InvalidIds(results, originals, check)| == |fs|
      && (forall k :: 0 <= k < |fs| ==> fs[k] < |results| && !check(results[fs[k]], originals[fs[k]]))
      && (forall k :: 0 <= k < |fs| ==> InvalidIds(results, originals, check)[k] == results[fs[k]].transactionId)
      && (forall k, l :: 0 <= k < l < |fs| ==> fs[k] < fs[l])
      && (forall j :: 0 <= j < |results| && !check(results[j], originals[j]) ==> j in fs)
  {
    FailingSpec(results, originals, check);
    InvalidIdsAt(results, originals, check);
  }

  /** The view always carries `audit_hash`, so validating it is exactly
      comparing the result's hash with the recomputed one. */
  lemma ViewValidation(t: TransactionResult, original: Record, prims: Primitives)
    ensures ValidateResult(ResultView(t), original, prims)
        <==> t.auditHash == JStr(ComputeAuditHash(ExpectedRecord(ResultView(t), original), prims))
  {
    assert ResultView(t)[0] == ("audit_hash", t.auditHash);
  }

  /** One iteration of the `process_all` loop, given what its
      `process_batch` call returned or raised. */
  function Attempt(c: Chunk, outcome: Result<BatchResult, BatchError>, total: nat, validate: bool, reportProgress: bool, check: Check)
    : Trace
    requires outcome.Ok? ==> |outcome.value.results| <= |c.records|
  {
    match outcome
    case Err(e) => Trace([], [FailedBatch(c.batchId, e)], [], [], [c])
    case Ok(br) =>
      var invalid := if validate then InvalidIds(br.results, c.records, check) else [];
      Trace(br.results, [],
        if reportProgress then [Progress(c.start + |c.records|, total)] else [],
        if |invalid| > 0 then [Warning(c.batchId, invalid)] else [],
        [c])
  }

  /** One iteration posts its chunk once. A raising call leaves nothing but
      its failed-batch entry. A call that returns contributes its results, one
      progress report when there is a callback, and, with validation on, one
      warning exactly when one of its results fails, listing `InvalidIds`
      under the chunk's batch id. */
  lemma AttemptSpec(c: Chunk, outcome: Result<BatchResult, BatchError>, total: nat, validate: bool, reportProgress: bool, check: Check)
    requires outcome.Ok? ==> |outcome.value.results| <= |c.records|
    ensures var t := Attempt(c, outcome, total, validate, reportProgress, check);
      && t.sent == [c]
      && (outcome.Err? <==> t.failedBatches != [])
      && (outcome.Err? ==>
            t.failedBatches == [FailedBatch(c.batchId, outcome.error)] && t.results == [] && t.progress == [] && t.warnings == [])
      && (outcome.Ok? ==> t.results == outcome.value.results)
      && t.progress == (if outcome.Ok? && reportProgress then [Progress(c.start + |c.records|, total)] else [])
    ensures Attempt(c, outcome, total, validate, reportProgress, check).warnings ==
      if validate && outcome.Ok? &&
         exists j :: 0 <= j < |outcome.value.results| && !check(outcome.value.results[j], c.records[j])
      then [Warning(c.batchId, InvalidIds(outcome.value.results, c.records, check))]
      else []
  {
    if validate && outcome.Ok? {
      InvalidIdsSpec(outcome.value.results, c.records, check);
    }
  }

  /** `process_batch(batch, batch_id)` for a chunk. */
  function Outcome(c: Chunk, send: Transport): (r: Result<BatchResult, BatchError>)
    ensures r.Ok? ==> |r.value.results| <= |c.records|
  {
    ProcessBatch(send(c.batchId, c.records), c.records, c.batchId)
  }

  /** What `process_batch` returns or raises for each chunk. */
  type Runner = Chunk -> Result<BatchResult, BatchError>

  /** `process_batch` never returns more results than the chunk has records. */
  ghost predicate Sound(run: Runner) {
    forall c :: run(c).Ok? ==> |run(c).value.results| <= |c.records|
  }

  /** The runner `process_all` uses: `process_batch` over a transport. */
  function Poster(send: Transport): (run: Runner)
    ensures Sound(run)
    ensures forall c :: run(c) == Outcome(c, send)
  {
    (c: Chunk) => Outcome(c, send)
  }

  /** The `process_all` loop over a list of chunks. */
  function RunBatches(cs: seq<Chunk>, run: Runner, total: nat, validate: bool, reportProgress: bool, check: Check): Trace
    requires Sound(run)
    decreases |cs|
  {
    if |cs| == 0 then NoTrace
    else Then(Attempt(cs[0], run(cs[0]), total, validate, reportProgress, check),
              RunBatches(cs[1..], run, total, validate, reportProgress, check))
  }

  /** The dict `process_all` returns. */
  datatype Summary = Summary(
    totalTransactions: nat,
    successful: nat,
    failed: int,
    failedBatches: seq<FailedBatch>,
    totalTime: real,
    throughput: real,
    results: seq<TransactionResult>)

  /** The summary together with the side effects of the run. */
  datatype Run = Run(summary: Summary, progress: seq<Progress>, warnings: seq<Warning>, sent: seq<Chunk>)

  /** The summary dict built after the loop. */
  function Finish(t: Trace, total: nat, totalTime: real): Run {
    Run(Summary(total, |t.results|, total - |t.results|, t.failedBatches, totalTime,
                Throughput(total, totalTime), t.results),
        t.progress, t.warnings, t.sent)
  }

  /** `range(0, total, 0)` raises `ValueError` before any chunk is sent. */
  datatype RunError = ZeroBatchSize

  /** `process_all(transactions, validate_audit_hash)`, given the transport,
      the elapsed time it measures, and the check applied to each result when
      validation is on. A negative chunk size makes the range empty: nothing
      is sent and every transaction counts as failed. */
  function ProcessAllWith(p: Processor, run: Runner, txns: seq<Record>, validate: bool, check: Check, totalTime: real)
    : Result<Run, RunError>
    requires Sound(run)
  {
    if p.batchSize == 0 then Err(ZeroBatchSize)
    else if p.batchSize < 0 then Ok(Finish(NoTrace, |txns|, totalTime))
    else Ok(Finish(RunBatches(Chunks(txns, p.batchSize), run, |txns|, validate, p.hasProgressCallback, check), |txns|, totalTime))
  }

  /** `process_all` with the audit-hash check of `AuditHashValidator`. */
  function ProcessAllSpec(p: Processor, send: Transport, txns: seq<Record>, validate: bool, prims: Primitives, totalTime: real)
    : (r: Result<Run, RunError>)
    ensures r.Err? <==> p.batchSize == 0
    ensures p.batchSize < 0 ==>
      && r.value.sent == [] && r.value.summary.results == [] && r.value.summary.failedBatches == []
      && r.value.progress == [] && r.value.warnings == []
      && r.value.summary.successful == 0 && r.value.summary.failed == |txns|
  {
    ProcessAllWith(p, Poster(send), txns, validate, AuditCheck(prims), totalTime)
  }

  /** `process_all(transactions, validate_audit_hash)` as the source writes it. */
  method ProcessAll(p: Processor, send: Transport, txns: seq<Record>, validate: bool, prims: Primitives, totalTime: real)
    returns (r: Result<Run, RunError>)
    ensures r == ProcessAllSpec(p, send, txns, validate, prims, totalTime)
  {
    r := ProcessAllLoop(p, Poster(send), txns, validate, AuditCheck(prims), totalTime);
  }

  /** The loop of `process_all`: one chunk per iteration. */
  method ProcessAllLoop(p: Processor, run: Runner, txns: seq<Record>, validate: bool, check: Check, totalTime: real)
    returns (r: Result<Run, RunError>)
    requires Sound(run)
    ensures r == ProcessAllWith(p, run, txns, validate, check, totalTime)
  {
    if p.batchSize == 0 {
      return Err(ZeroBatchSize);
    }
    var total := |txns|;
    var acc := NoTrace;
    if p.batchSize > 0 {
      var size: nat := p.batchSize;
      var i: nat := 0;
      ThenNoTrace(RunBatches(Chunks(txns, size), run, total, validate, p.hasProgressCallback, check));
      while i < total
        invariant Then(acc, RunBatches(ChunksFrom(txns, size, i), run, total, validate, p.hasProgressCallback, check))
               == RunBatches(Chunks(txns, size), run, total, validate, p.hasProgressCallback, check)
        decreases total - i
      {
        var c := Chunk(i / size + 1, i, txns[i..Min(i + size, total)]);
        var t := AttemptBatch(c, run(c), total, validate, p.hasProgressCallback, check);
        RunStep(txns, size, i, run, validate, p.hasProgressCallback, check, acc);
        acc := Then(acc, t);
        i := i + size;
      }
      RunDone(txns, size, i, run, validate, p.hasProgressCallback, check, acc);
    }
    return Ok(Finish(acc, total, totalTime));
  }

  /** One iteration moves the chunk at offset `i` from the chunks still to
      run onto the trace so far. */
  lemma RunStep(txns: seq<Record>, size: nat, i: nat, run: Runner, validate: bool, rp: bool, check: Check, acc: Trace)
    requires size >= 1 && i < |txns| && Sound(run)
    ensures var c := Chunk(i / size + 1, i, txns[i..Min(i + size, |txns|)]);
      Then(acc, RunBatches(ChunksFrom(txns, size, i), run, |txns|, validate, rp, check))
      == Then(Then(acc, Attempt(c, run(c), |txns|, validate, rp, check)),
              RunBatches(ChunksFrom(txns, size, i + size), run, |txns|, validate, rp, check))
  {
    var c := Chunk(i / size + 1, i, txns[i..Min(i + size, |txns|)]);
    var rest := ChunksFrom(txns, size, i + size);
    assert ChunksFrom(txns, size, i) == [c] + rest;
    assert ([c] + rest)[1..] == rest;
    ThenAssoc(acc, Attempt(c, run(c), |txns|, validate, rp, check), RunBatches(rest, run, |txns|, validate, rp, check));
  }

  /** Past the end of the input no chunk is left to run. */
  lemma RunDone(txns: seq<Record>, size: nat, i: nat, run: Runner, validate: bool, rp: bool, check: Check, acc: Trace)
    requires size >= 1 && i >= |txns| && Sound(run)
    ensures Then(acc, RunBatches(ChunksFrom(txns, size, i), run, |txns|, validate, rp, check)) == acc
  {
    ThenNoTrace(acc);
  }

  /** The body of the loop. */
  method AttemptBatch(c: Chunk, outcome: Result<BatchResult, BatchError>, total: nat, validate: bool, reportProgress: bool, check: Check)
    returns (t: Trace)
    requires outcome.Ok? ==> |outcome.value.results| <= |c.records|
    ensures t == Attempt(c, outcome, total, validate, reportProgress, check)
  {
    if outcome.Err? {
      t := Trace([], [FailedBatch(c.batchId, outcome.error)], [], [], [c]);
    } else {
      var results := outcome.value.results;
      var invalid: seq<Json> := [];
      if validate {
        invalid := CollectInvalid(results, c.records, check);
      }
      var progress := if reportProgress then [Progress(c.start + |c.records|, total)] else [];
      var warnings := if |invalid| > 0 then [Warning(c.batchId, invalid)] else [];
      t := Trace(results, [], progress, warnings, [c]);
    }
  }

  /** The validation pass: `invalid_hashes` built by appending one id per
      failed check. */
  method CollectInvalid(results: seq<TransactionResult>, originals: seq<Record>, check: Check) returns (invalid: seq<Json>)
    requires |results| <= |originals|
    ensures invalid == InvalidIds(results, originals, check)
  {
    invalid := [];
    var j := 0;
    while j < |results|
      invariant j <= |results|
      invariant invalid == InvalidIds(results[..j], originals, check)
    {
      assert results[..j + 1][..j] == results[..j];
      if !check(results[j], originals[j]) {
        invalid := invalid + [results[j].transactionId];
      }
      j := j + 1;
    }
    assert results[..j] == results;
  }
}

=== FILE: processor_props.dfy ===
/** What a `process_all` run promises, stated against reference lists built
    chunk by chunk rather than against the loop's running accumulators. */
module ProcessorProps {
  import opened Basics
  import opened JsonValue
  import opened Audit
  import opened Batch
  import opened Processor

  /** The results of the chunks that went through, concatenated in order. */
  function Delivered(cs: seq<Chunk>, run: Runner): seq<TransactionResult>
    requires Sound(run)
  {
    if |cs| == 0 then []
    else (if run(cs[0]).Ok? then run(cs[0]).value.results else []) + Delivered(cs[1..], run)
  }

  /** One failed-batch entry per chunk whose `process_batch` raised. */
  function Failures(cs: seq<Chunk>, run: Runner): seq<FailedBatch> {
    if |cs| == 0 then []
    else (if run(cs[0]).Err? then [FailedBatch(cs[0].batchId, run(cs[0]).error)] else []) + Failures(cs[1..], run)
  }

  /** One progress report per chunk that went through: the offset just past it. */
  function Reports(cs: seq<Chunk>, run: Runner, total: nat): seq<Progress> {
    if |cs| == 0 then []
    else (if run(cs[0]).Ok? then [Progress(cs[0].start + |cs[0].records|, total)] else []) + Reports(cs[1..], run, total)
  }

  /** Every chunk went through and got one result per transaction. */
  ghost predicate AllDelivered(cs: seq<Chunk>, run: Runner) {
    forall k :: 0 <= k < |cs| ==> run(cs[k]).Ok? && |run(cs[k]).value.results| == |cs[k].records|
  }

  /** Result `i` of a chunk is labelled with transaction `i` of that chunk. */
  ghost predicate Labelled(run: Runner) {
    forall c: Chunk, i :: 0 <= i < |c.records| && run(c).Ok? && i < |run(c).value.results| ==>
      run(c).value.results[i].transactionId == TransactionIdFor(c.records[i], c.batchId, i)
  }

  /** Running two lists of chunks back to back is running one after the other. */
  lemma {:induction false} RunAppend(a: seq<Chunk>, b: seq<Chunk>, run: Runner, total: nat, validate: bool, rp: bool, check: Check)
    requires Sound(run)
    ensures RunBatches(a + b, run, total, validate, rp, check)
         == Then(RunBatches(a, run, total, validate, rp, check), RunBatches(b, run, total, validate, rp, check))
    decreases |a|
  {
    var rb := RunBatches(b, run, total, validate, rp, check);
    if |a| == 0 {
      assert a + b == b;
      ThenNoTrace(rb);
    } else {
      assert (a + b)[0] == a[0];
      assert (a + b)[1..] == a[1..] + b;
      RunAppend(a[1..], b, run, total, validate, rp, check);
      ThenAssoc(Attempt(a[0], run(a[0]), total, validate, rp, check),
                RunBatches(a[1..], run, total, validate, rp, check), rb);
    }
  }

  /** Every chunk is posted exactly once, in order; the results, the failed
      batches and the progress reports are those of the chunks taken one at a
      time, whether or not validation is on; with no callback nothing is
      reported. */
  lemma {:induction false} RunOutcomes(cs: seq<Chunk>, run: Runner, total: nat, validate: bool, rp: bool, check: Check)
    requires Sound(run)
    ensures var t := RunBatches(cs, run, total, validate, rp, check);
      && t.sent == cs
      && t.results == Delivered(cs, run)
      && t.failedBatches == Failures(cs, run)
      && t.progress == (if rp then Reports(cs, run, total) else [])
    decreases |cs|
  {
    if |cs| > 0 {
      RunOutcomes(cs[1..], run, total, validate, rp, check);
      assert [cs[0]] + cs[1..] == cs;
    }
  }

  /** Without validation there are no warnings; with it, there are none
      exactly when every result that came back passes the check against the
      transaction at its position in its chunk. */
  lemma {:induction false} RunWarnings(cs: seq<Chunk>, run: Runner, total: nat, validate: bool, rp: bool, check: Check)
    requires Sound(run)
    ensures !validate ==> RunBatches(cs, run, total, validate, rp, check).warnings == []
    ensures validate ==>
      (RunBatches(cs, run, total, validate, rp, check).warnings == [] <==>
        forall k, j :: 0 <= k < |cs| && run(cs[k]).Ok? && 0 <= j < |run(cs[k]).value.results| ==>
          check(run(cs[k]).value.results[j], cs[k].records[j]))
    decreases |cs|
  {
    if |cs| > 0 {
      RunWarnings(cs[1..], run, total, validate, rp, check);
      var c := cs[0];
      if validate && run(c).Ok? {
        InvalidIdsSpec(run(c).value.results, c.records, check);
      }
      if validate {
        assert forall k :: 1 <= k < |cs| ==> cs[1..][k - 1] == cs[k];
      }
    }
  }

  /** Each chunk either fails or reports progress, never both. */
  lemma {:induction false} FailuresAndReports(cs: seq<Chunk>, run: Runner, total: nat)
    ensures |Failures(cs, run)| + |Reports(cs, run, total)| == |cs|
    decreases |cs|
  {
    if |cs| > 0 {
      FailuresAndReports(cs[1..], run, total);
    }
  }

  /** No chunk yields more results than it has transactions, and when every
      chunk is fully answered there are exactly as many results as
      transactions and no failures. */
  lemma {:induction false} DeliveredLength(cs: seq<Chunk>, run: Runner)
    requires Sound(run)
    ensures |Delivered(cs, run)| <= |Flatten(cs)|
    ensures AllDelivered(cs, run) ==> |Delivered(cs, run)| == |Flatten(cs)| && Failures(cs, run) == []
    decreases |cs|
  {
    if |cs| > 0 {
      DeliveredLength(cs[1..], run);
      assert AllDelivered(cs, run) ==> AllDelivered(cs[1..], run) by {
        assert forall k :: 1 <= k < |cs| ==> cs[1..][k - 1] == cs[k];
      }
    }
  }

  /** The run over a list of chunks is the run over those before chunk `k`,
      then chunk `k`'s attempt, then the run over those after it. */
  lemma RunAt(cs: seq<Chunk>, k: nat, run: Runner, total: nat, validate: bool, rp: bool, check: Check)
    requires Sound(run) && k < |cs|
    ensures RunBatches(cs, run, total, validate, rp, check)
         == Then(RunBatches(cs[..k], run, total, validate, rp, check),
                 Then(Attempt(cs[k], run(cs[k]), total, validate, rp, check),
                      RunBatches(cs[k + 1..], run, total, validate, rp, check)))
  {
    assert cs == cs[..k] + cs[k..];
    RunAppend(cs[..k], cs[k..], run, total, validate, rp, check);
    assert cs[k..][0] == cs[k] && cs[k..][1..] == cs[k + 1..];
  }

  /** A failing chunk is recorded and skipped: the chunks before it and after
      it run exactly as they would on their own. */
  lemma FailureIsolated(cs: seq<Chunk>, k: nat, run: Runner, total: nat, validate: bool, rp: bool, check: Check)
    requires Sound(run)
    requires k < |cs| && run(cs[k]).Err?
    ensures RunBatches(cs, run, total, validate, rp, check)
         == Then(RunBatches(cs[..k], run, total, validate, rp, check),
                 Then(Trace([], [FailedBatch(cs[k].batchId, run(cs[k]).error)], [], [], [cs[k]]),
                      RunBatches(cs[k + 1..], run, total, validate, rp, check)))
  {
    RunAt(cs, k, run, total, validate, rp, check);
  }

  /** For the chunks of `range(start, len(s), size)`, every reported offset
      lies past `start`, none passes `len(s)`, and each carries `total`. */
  lemma {:induction false} ReportsBounded(s: seq<Record>, size: nat, start: nat, run: Runner, total: nat)
    requires size >= 1
    ensures forall q :: q in Reports(ChunksFrom(s, size, start), run, total) ==>
      start < q.current <= |s| && q.total == total
    decreases |s| - start
  {
    if start < |s| {
      var next := start + size;
      ReportsBounded(s, size, next, run, total);
      ReportsHead(s, size, start, run, total);
    }
  }

  /** The first step of `Reports` over the chunks from `start`. */
  lemma ReportsHead(s: seq<Record>, size: nat, start: nat, run: Runner, total: nat)
    requires size >= 1 && start < |s|
    ensures var c := ChunksFrom(s, size, start)[0];
      && c.start + |c.records| == Min(start + size, |s|)
      && Reports(ChunksFrom(s, size, start), run, total)
         == (if run(c).Ok? then [Progress(Min(start + size, |s|), total)] else [])
            + Reports(ChunksFrom(s, size, start + size), run, total)
  {
    var cs := ChunksFrom(s, size, start);
    assert cs[1..] == ChunksFrom(s, size, start + size);
  }

  /** The reported offsets strictly increase. */
  lemma {:induction false} ReportsAscend(s: seq<Record>, size: nat, start: nat, run: Runner, total: nat)
    requires size >= 1
    ensures Ascending(Reports(ChunksFrom(s, size, start), run, total))
    decreases |s| - start
  {
    if start < |s| {
      var next := start + size;
      ReportsAscend(s, size, next, run, total);
      ReportsBounded(s, size, next, run, total);
      ReportsHead(s, size, start, run, total);
      var c := ChunksFrom(s, size, start)[0];
      AscendingCons(if run(c).Ok? then [Progress(Min(next, |s|), total)] else [],
        Reports(ChunksFrom(s, size, next), run, total), next);
    }
  }

  /** Offsets that strictly increase. */
  predicate Ascending(ps: seq<Progress>) {
    forall i, j :: 0 <= i < j < |ps| ==> ps[i].current < ps[j].current
  }

  lemma AscendingCons(x: seq<Progress>, tail: seq<Progress>, bound: int)
    requires |x| <= 1 && (forall q :: q in x ==> q.current <= bound)
    requires (forall q :: q in tail ==> bound < q.current) && Ascending(tail)
    ensures Ascending(x + tail)
  {
    var ps := x + tail;
    forall i, j | 0 <= i < j < |ps|
      ensures ps[i].current < ps[j].current
    {
      assert ps[j] == tail[j - |x|] && tail[j - |x|] in tail;
      if i >= |x| {
        assert ps[i] == tail[i - |x|];
      } else {
        assert ps[i] in x;
      }
    }
  }

  /** When every chunk is fully answered, the result for record `j` of chunk
      `k` sits right after the records of the chunks before it, and is the
      one chunk `k`'s batch returned for that record. */
  lemma {:induction false} DeliveredAt(cs: seq<Chunk>, run: Runner, k: nat, j: nat)
    requires Sound(run) && AllDelivered(cs, run)
    requires k < |cs| && j < |cs[k].records|
    ensures |Flatten(cs[..k])| + j < |Delivered(cs, run)|
    ensures run(cs[k]).Ok? && j < |run(cs[k]).value.results|
    ensures Delivered(cs, run)[|Flatten(cs[..k])| + j] == run(cs[k]).value.results[j]
    decreases k
  {
    var c := cs[0];
    var head := run(c).value.results;
    assert Delivered(cs, run) == head + Delivered(cs[1..], run);
    if k > 0 {
      AllDeliveredTail(cs, run);
      DeliveredAt(cs[1..], run, k - 1, j);
      assert cs[..k] == [c] + cs[1..][..k - 1];
      FlattenCons(c, cs[1..][..k - 1]);
      assert cs[1..][k - 1] == cs[k];
    } else {
      assert cs[..0] == [];
    }
  }

  /** Dropping the first chunk keeps every chunk fully answered. */
  lemma AllDeliveredTail(cs: seq<Chunk>, run: Runner)
    requires |cs| > 0 && AllDelivered(cs, run)
    ensures AllDelivered(cs[1..], run)
  {
    assert forall i :: 0 <= i < |cs| - 1 ==> cs[1..][i] == cs[i + 1];
  }

  /** Offset `p` of the input falls in chunk `p // size`, at position
      `p % size`. */
  lemma ChunkOfOffset(s: seq<Record>, size: nat, p: nat)
    requires size >= 1 && p < |s|
    ensures var cs := Chunks(s, size);
      && p / size < |cs|
      && p % size < |cs[p / size].records|
      && cs[p / size].records[p % size] == s[p]
      && cs[p / size].batchId == p / size + 1
  {
    var cs := Chunks(s, size);
    OffsetChunkExists(s, size, p);
    ChunkShape(s, size, 0, 0, p / size);
    OffsetRecord(s, size, cs[p / size], p);
  }

  /** The chunks before chunk `k` hold `k * size` records. */
  lemma ChunksPrefix(s: seq<Record>, size: nat, k: nat)
    requires size >= 1 && k < |Chunks(s, size)|
    ensures |Flatten(Chunks(s, size)[..k])| == k * size
  {
    var cs := Chunks(s, size);
    forall i | 0 <= i < k
      ensures |cs[i].records| == size
    {
      ChunkShape(s, size, 0, 0, i);
    }
    FullPrefix(cs, size, k);
  }

  lemma OffsetChunkExists(s: seq<Record>, size: nat, p: nat)
    requires size >= 1 && p < |s|
    ensures p / size < |Chunks(s, size)|
  {
    ChunksCount(s, size, 0);
    DivBelow(p, size, |Chunks(s, size)|);
  }

  /** An offset below `n * size` lies in one of the first `n` chunks. */
  lemma DivBelow(p: nat, size: nat, n: int)
    requires size >= 1 && p < n * size
    ensures p / size < n
  {
    var q := p / size;
    Euclid(p, size);
    MulLtCancel(q, n, size);
  }

  lemma MulLtCancel(a: int, b: int, size: int)
    requires size >= 1 && a * size < b * size
    ensures a < b
  {
    assert (b - a) * size == b * size - a * size;
  }

  /** Offset `p` sits at position `p % size` of chunk number `p // size`. */
  lemma OffsetRecord(s: seq<Record>, size: nat, c: Chunk, p: nat)
    requires size >= 1 && p < |s| && ChunkAt(s, size, c, p / size)
    ensures p % size < |c.records| && c.records[p % size] == s[p]
  {
    var k, j := p / size, p % size;
    var st := k * size;
    assert p == st + j && j < size;
    assert c.records[j] == s[st + j];
  }

  /** Chunks that are all full hold `size` records each. */
  lemma {:induction false} FullPrefix(cs: seq<Chunk>, size: nat, k: nat)
    requires k <= |cs|
    requires forall i :: 0 <= i < k ==> |cs[i].records| == size
    ensures |Flatten(cs[..k])| == k * size
    decreases k
  {
    if k > 0 {
      assert cs[..k] == [cs[0]] + cs[1..][..k - 1];
      FlattenCons(cs[0], cs[1..][..k - 1]);
      FullPrefix(cs[1..], size, k - 1);
      assert k * size == size + (k - 1) * size;
    } else {
      assert cs[..0] == [];
    }
  }

  lemma LabelAt(run: Runner, c: Chunk, i: nat)
    requires Labelled(run)
    requires i < |c.records| && run(c).Ok? && i < |run(c).value.results|
    ensures run(c).value.results[i].transactionId == TransactionIdFor(c.records[i], c.batchId, i)
  {
  }

  /** The runner built on `process_batch` never returns more results than
      the chunk holds and labels result `i` with transaction `i`. */
  lemma PosterLabels(send: Transport)
    ensures Sound(Poster(send)) && Labelled(Poster(send))
  {
  }

  /** A chunk is fully answered by `process_batch` when the server replies
      200 with a list of at least as many complete records as the chunk
      holds. */
  lemma PosterDelivers(send: Transport, c: Chunk)
    requires var ex := send(c.batchId, c.records);
      && ex.reply.Http? && ex.reply.status == 200
      && ex.reply.body.Decoded? && ex.reply.body.value.JArr?
      && |ex.reply.body.value.items| >= |c.records|
      && forall j :: 0 <= j < |c.records| ==> Complete(ex.reply.body.value.items[j])
    ensures Poster(send)(c).Ok? && |Poster(send)(c).value.results| == |c.records|
  {
  }

  /** The summary counts: `successful` is the number of results, which never
      exceeds the input, so `failed` is never negative. */
  lemma ProcessAllCounts(p: Processor, run: Runner, txns: seq<Record>, validate: bool, check: Check, totalTime: real)
    requires Sound(run) && p.batchSize != 0
    ensures var r := ProcessAllWith(p, run, txns, validate, check, totalTime).value;
      && r.summary.totalTransactions == |txns|
      && r.summary.successful + r.summary.failed == |txns|
      && 0 <= r.summary.failed
      && r.summary.successful == |r.summary.results|
  {
    if p.batchSize > 0 {
      var size: nat := p.batchSize;
      var cs := Chunks(txns, size);
      RunOutcomes(cs, run, |txns|, validate, p.hasProgressCallback, check);
      DeliveredLength(cs, run);
      ChunksFlatten(txns, size, 0);
    }
  }

  /** The summary's throughput is the input size over the elapsed time, and
      0 when no time elapsed. */
  lemma ProcessAllThroughput(p: Processor, run: Runner, txns: seq<Record>, validate: bool, check: Check, totalTime: real)
    requires Sound(run) && p.batchSize != 0
    ensures var r := ProcessAllWith(p, run, txns, validate, check, totalTime).value;
      && (totalTime <= 0.0 ==> r.summary.throughput == 0.0)
      && (totalTime > 0.0 ==> r.summary.throughput * totalTime == |txns| as real)
  {
    var r := ProcessAllWith(p, run, txns, validate, check, totalTime).value;
    assert r.summary.throughput == Throughput(|txns|, totalTime);
  }

  /** Without validation there are no warnings; with a callback every chunk
      either fails or reports progress, without one nothing is reported. */
  lemma ProcessAllReports(p: Processor, run: Runner, txns: seq<Record>, validate: bool, check: Check, totalTime: real)
    requires Sound(run) && p.batchSize != 0
    ensures var r := ProcessAllWith(p, run, txns, validate, check, totalTime).value;
      && (!validate ==> r.warnings == [])
      && (!p.hasProgressCallback ==> r.progress == [])
      && (p.hasProgressCallback ==> |r.summary.failedBatches| + |r.progress| == |r.sent|)
  {
    if p.batchSize > 0 {
      var size: nat := p.batchSize;
      var cs := Chunks(txns, size);
      RunOutcomes(cs, run, |txns|, validate, p.hasProgressCallback, check);
      RunWarnings(cs, run, |txns|, validate, p.hasProgressCallback, check);
      FailuresAndReports(cs, run, |txns|);
    }
  }

  /** For a positive chunk size the input is posted in order, in
      `ceil(len / size)` chunks with ids 1, 2, ..., each of 1 to `size`
      records and all but the last exactly `size`. */
  lemma ProcessAllChunks(p: Processor, run: Runner, txns: seq<Record>, validate: bool, check: Check, totalTime: real)
    requires Sound(run) && p.batchSize > 0
    ensures var sent := ProcessAllWith(p, run, txns, validate, check, totalTime).value.sent;
      && Flatten(sent) == txns
      && |sent| * p.batchSize >= |txns|
      && (|txns| > 0 ==> (|sent| - 1) * p.batchSize < |txns|)
      && (forall k :: 0 <= k < |sent| ==>
            sent[k].batchId == k + 1 && 1 <= |sent[k].records| <= p.batchSize)
      && (forall k :: 0 <= k < |sent| - 1 ==> |sent[k].records| == p.batchSize)
  {
    var size: nat := p.batchSize;
    RunOutcomes(Chunks(txns, size), run, |txns|, validate, p.hasProgressCallback, check);
    ChunksPartition(txns, size);
  }

  /** Validation only observes: turning it on changes neither the summary
      nor the progress reports nor what is sent. */
  lemma ValidationObservational(p: Processor, run: Runner, txns: seq<Record>, check: Check, totalTime: real)
    requires Sound(run)
    ensures var on := ProcessAllWith(p, run, txns, true, check, totalTime);
      var off := ProcessAllWith(p, run, txns, false, check, totalTime);
      on.Ok? == off.Ok? &&
      (on.Ok? ==> on.value.summary == off.value.summary && on.value.progress == off.value.progress
                  && on.value.sent == off.value.sent)
  {
    if p.batchSize > 0 {
      var cs := Chunks(txns, p.batchSize);
      RunOutcomes(cs, run, |txns|, true, p.hasProgressCallback, check);
      RunOutcomes(cs, run, |txns|, false, p.hasProgressCallback, check);
    }
  }

  /** With validation on, `process_all` warns about no batch exactly when
      every returned result checks out against the transaction it answers. */
  lemma WarningsExactlyOnBadHashes(p: Processor, run: Runner, txns: seq<Record>, check: Check, totalTime: real)
    requires Sound(run) && p.batchSize > 0
    ensures var cs := Chunks(txns, p.batchSize);
      ProcessAllWith(p, run, txns, true, check, totalTime).value.warnings == [] <==>
        forall k, j :: 0 <= k < |cs| && run(cs[k]).Ok? && 0 <= j < |run(cs[k]).value.results| ==>
          check(run(cs[k]).value.results[j], cs[k].records[j])
  {
    RunWarnings(Chunks(txns, p.batchSize), run, |txns|, true, p.hasProgressCallback, check);
  }

  /** With validation on, chunk `k` adds to the warnings, between those of
      the chunks before it and those of the chunks after it, one warning naming
      its batch id and the ids of its failing results exactly when it went
      through and one of its results fails, and nothing otherwise. */
  lemma WarningsAt(cs: seq<Chunk>, k: nat, run: Runner, total: nat, rp: bool, check: Check)
    requires Sound(run) && k < |cs|
    ensures var r := run(cs[k]);
      RunBatches(cs, run, total, true, rp, check).warnings
        == RunBatches(cs[..k], run, total, true, rp, check).warnings
         + (if r.Ok? && exists j :: 0 <= j < |r.value.results| && !check(r.value.results[j], cs[k].records[j])
            then [Warning(cs[k].batchId, InvalidIds(r.value.results, cs[k].records, check))]
            else [])
         + RunBatches(cs[k + 1..], run, total, true, rp, check).warnings
  {
    var before := RunBatches(cs[..k], run, total, true, rp, check);
    var here := Attempt(cs[k], run(cs[k]), total, true, rp, check);
    var after := RunBatches(cs[k + 1..], run, total, true, rp, check);
    RunAt(cs, k, run, total, true, rp, check);
    assert RunBatches(cs, run, total, true, rp, check).warnings == before.warnings + here.warnings + after.warnings;
    AttemptSpec(cs[k], run(cs[k]), total, true, rp, check);
  }

  /** `WarningsAt` for the chunks `process_all` cuts: the `k`-th chunk of the
      run is batch `k + 1`. */
  lemma ChunkWarning(p: Processor, run: Runner, txns: seq<Record>, check: Check, totalTime: real, k: nat)
    requires Sound(run) && p.batchSize > 0 && k < |Chunks(txns, p.batchSize)|
    ensures var cs := Chunks(txns, p.batchSize);
      var rp := p.hasProgressCallback;
      var r := run(cs[k]);
      && cs[k].batchId == k + 1
      && ProcessAllWith(p, run, txns, true, check, totalTime).value.warnings
        == RunBatches(cs[..k], run, |txns|, true, rp, check).warnings
         + (if r.Ok? && exists j :: 0 <= j < |r.value.results| && !check(r.value.results[j], cs[k].records[j])
            then [Warning(k + 1, InvalidIds(r.value.results, cs[k].records, check))]
            else [])
         + RunBatches(cs[k + 1..], run, |txns|, true, rp, check).warnings
  {
    var cs := Chunks(txns, p.batchSize);
    WarningsAt(cs, k, run, |txns|, p.hasProgressCallback, check);
    ChunksPartition(txns, p.batchSize);
  }

  /** The progress callback sees strictly increasing offsets, each at most
      the number of transactions, which it is always told as the total. */
  lemma ProgressAscends(p: Processor, run: Runner, txns: seq<Record>, validate: bool, check: Check, totalTime: real)
    requires Sound(run) && p.batchSize != 0
    ensures var ps := ProcessAllWith(p, run, txns, validate, check, totalTime).value.progress;
      && (forall q :: q in ps ==> 0 < q.current <= |txns| && q.total == |txns|)
      && Ascending(ps)
  {
    if p.batchSize > 0 {
      RunOutcomes(Chunks(txns, p.batchSize), run, |txns|, validate, p.hasProgressCallback, check);
      ReportsBounded(txns, p.batchSize, 0, run, |txns|);
      ReportsAscend(txns, p.batchSize, 0, run, |txns|);
    }
  }

  /** When every chunk is fully answered, nothing fails and result `i` is
      the answer for transaction `i`, under its own id or the fallback one
      for its batch and position. */
  lemma AllDeliveredRun(p: Processor, run: Runner, txns: seq<Record>, validate: bool, check: Check, totalTime: real)
    requires p.batchSize > 0
    requires Sound(run) && Labelled(run)
    requires AllDelivered(Chunks(txns, p.batchSize), run)
    ensures var s := ProcessAllWith(p, run, txns, validate, check, totalTime).value.summary;
      && s.failed == 0 && s.successful == |txns| && s.failedBatches == []
      && forall i :: 0 <= i < |txns| ==>
           s.results[i].transactionId == TransactionIdFor(txns[i], i / p.batchSize + 1, i % p.batchSize)
  {
    var size: nat := p.batchSize;
    var cs := Chunks(txns, size);
    RunOutcomes(cs, run, |txns|, validate, p.hasProgressCallback, check);
    DeliveredLabels(txns, size, run);
  }

  /** All results, in input order, when every chunk is fully answered. */
  lemma DeliveredLabels(s: seq<Record>, size: nat, run: Runner)
    requires size >= 1
    requires Sound(run) && Labelled(run) && AllDelivered(Chunks(s, size), run)
    ensures |Delivered(Chunks(s, size), run)| == |s| && Failures(Chunks(s, size), run) == []
    ensures forall i :: 0 <= i < |s| ==>
      Delivered(Chunks(s, size), run)[i].transactionId == TransactionIdFor(s[i], i / size + 1, i % size)
  {
    DeliveredLength(Chunks(s, size), run);
    ChunksFlatten(s, size, 0);
    forall i | 0 <= i < |s|
      ensures Delivered(Chunks(s, size), run)[i].transactionId == TransactionIdFor(s[i], i / size + 1, i % size)
    {
      DeliveredLabel(s, size, run, i);
    }
  }

  /** The result at offset `i` answers transaction `i` of the input. */
  lemma DeliveredLabel(s: seq<Record>, size: nat, run: Runner, i: nat)
    requires size >= 1 && i < |s|
    requires Sound(run) && Labelled(run) && AllDelivered(Chunks(s, size), run)
    ensures i < |Delivered(Chunks(s, size), run)|
    ensures Delivered(Chunks(s, size), run)[i].transactionId == TransactionIdFor(s[i], i / size + 1, i % size)
  {
    var k, j := i / size, i % size;
    ChunkOfOffset(s, size, i);
    ChunksPrefix(s, size, k);
    DeliveredAt(Chunks(s, size), run, k, j);
    Euclid(i, size);
    LabelAt(run, Chunks(s, size)[k], j);
  }

  lemma Euclid(i: nat, size: nat)
    requires size >= 1
    ensures (i / size) * size + i % size == i
  {
  }
}

=== FILE: report.dfy ===
/** `generate_report(results)` (examples/csv-import/reconcile_csv.py): the
    summary of a reconciliation run: how many results matched, a histogram
    of the match types among them, the match rate, and the mean confidence
    of the matches. */
module Report {
  import opened Basics
  import opened JsonValue

  /** What a Python dict key is up to equality: `True == 1 == 1.0`, `False
      == 0 == 0.0`, strings by content, and `None`. */
  datatype Key = KNull | KNum(x: real) | KStr(s: string)

  /** The key a value files under, or `None` for a list or dict, which are
      unhashable. */
  function KeyOf(v: Json): Option<Key> {
    match v
    case JNull => Some(KNull)
    case JBool(b) => Some(KNum(if b then 1.0 else 0.0))
    case JInt(i) => Some(KNum(i as real))
    case JFloat(f) => Some(KNum(f))
    case JStr(s) => Some(KStr(s))
    case _ => None
  }

  /** The exceptions `generate_report` can raise. */
  datatype ReportError =
      /** `TypeError: unhashable type` when a match type is a list or dict */
    | UnhashableMatchType(matchType: Json)
      /** the `TypeError`, `ValueError` or `OverflowError` of `float(score)` */
    | NotANumber(score: Json)

  /** The three fields `generate_report` reads from a result. */
  datatype Row = Row(isMatch: bool, matchType: Json, score: Json)

  /** `r.get('is_match')` (truthy or not), `r.get('match_type', 'unknown')`
      (a stored `None` stays `None`) and `r.get('confidence_score', 0)`. */
  function RowOf(r: Record): (row: Row)
    ensures row.isMatch <==> Truthy(Get(r, "is_match"))
    ensures HasKey(r, "match_type") ==> Lookup(r, "match_type") == Some(row.matchType)
    ensures !HasKey(r, "match_type") ==> row.matchType == JStr("unknown")
    ensures HasKey(r, "confidence_score") ==> Lookup(r, "confidence_score") == Some(row.score)
    ensures !HasKey(r, "confidence_score") ==> row.score == JInt(0)
  {
    LookupFound(r, "match_type");
    LookupFound(r, "confidence_score");
    Row(Truthy(Get(r, "is_match")), Lookup(r, "match_type").GetOr(JStr("unknown")),
        Lookup(r, "confidence_score").GetOr(JInt(0)))
  }

  /** The rows of a list of results. */
  function Rows(rs: seq<Record>): (rows: seq<Row>)
    ensures |rows| == |rs| && forall i :: 0 <= i < |rs| ==> rows[i] == RowOf(rs[i])
  {
    seq(|rs|, i requires 0 <= i < |rs| => RowOf(rs[i]))
  }

  /** `sum(1 for r in results if r.get('is_match'))`. */
  function MatchedCount(rows: seq<Row>): (n: nat)
    ensures n <= |rows|
    decreases |rows|
  {
    if |rows| == 0 then 0
    else MatchedCount(rows[..|rows| - 1]) + (if rows[|rows| - 1].isMatch then 1 else 0)
  }

  /** The matched rows, in order. */
  function Matched(rows: seq<Row>): seq<Row>
    decreases |rows|
  {
    if |rows| == 0 then []
    else
      var n := |rows| - 1;
      Matched(rows[..n]) + (if rows[n].isMatch then [rows[n]] else [])
  }

  /** The count is the number of matched rows: none exactly when no row
      matches, all exactly when every one does. */
  lemma {:induction false} MatchedCountSpec(rows: seq<Row>)
    ensures MatchedCount(rows) == |Matched(rows)|
    ensures forall i :: 0 <= i < |Matched(rows)| ==> Matched(rows)[i].isMatch
    ensures MatchedCount(rows) == 0 <==> forall i :: 0 <= i < |rows| ==> !rows[i].isMatch
    ensures MatchedCount(rows) == |rows| <==> forall i :: 0 <= i < |rows| ==> rows[i].isMatch
    decreases |rows|
  {
    if |rows| > 0 {
      var n := |rows| - 1;
      var front := rows[..n];
      MatchedCountSpec(front);
      assert forall i :: 0 <= i < n ==> rows[i] == front[i];
    }
  }

  /** The match-type dict: `(key, count)` in insertion order. */
  type Histogram = seq<(Json, nat)>

  /** Every key is hashable and no two keys are equal as Python compares them. */
  predicate Keyed(h: Histogram) {
    && (forall i :: 0 <= i < |h| ==> KeyOf(h[i].0).Some?)
    && (forall i, j :: 0 <= i < j < |h| ==> KeyOf(h[i].0) != KeyOf(h[j].0))
  }

  /** Every stored count is at least one: the loop only ever writes
      `d.get(v, 0) + 1`. */
  predicate Positive(h: Histogram) {
    forall i :: 0 <= i < |h| ==> h[i].1 >= 1
  }

  /** `d.get(k, 0)`. */
  function CountOf(h: Histogram, k: Key): nat {
    if |h| == 0 then 0
    else if KeyOf(h[0].0) == Some(k) then h[0].1
    else CountOf(h[1..], k)
  }

  /** The sum of the dict's values. */
  function Total(h: Histogram): nat {
    if |h| == 0 then 0 else h[0].1 + Total(h[1..])
  }

  /** `d[v] = d.get(v, 0) + 1`: an equal key already present keeps its
      place and its original spelling; otherwise `v` is appended with 1. */
  function Bump(h: Histogram, v: Json): Histogram
    requires KeyOf(v).Some?
  {
    if |h| == 0 then [(v, 1)]
    else if KeyOf(h[0].0) == KeyOf(v) then [(h[0].0, h[0].1 + 1)] + h[1..]
    else [h[0]] + Bump(h[1..], v)
  }

  /** Bumping adds one to the count of `v`'s key and to the total and
      leaves every other count alone. */
  lemma {:induction false} BumpCounts(h: Histogram, v: Json)
    requires KeyOf(v).Some?
    ensures CountOf(Bump(h, v), KeyOf(v).value) == CountOf(h, KeyOf(v).value) + 1
    ensures forall k :: k != KeyOf(v).value ==> CountOf(Bump(h, v), k) == CountOf(h, k)
    ensures Total(Bump(h, v)) == Total(h) + 1
    decreases |h|
  {
    if |h| > 0 {
      var r := Bump(h, v);
      if KeyOf(h[0].0) == KeyOf(v) {
        assert r[1..] == h[1..];
      } else {
        BumpCounts(h[1..], v);
        assert r[1..] == Bump(h[1..], v);
      }
    }
  }

  /** Bumping stores no zero count. */
  lemma {:induction false} BumpPositive(h: Histogram, v: Json)
    requires KeyOf(v).Some?
    requires Positive(h)
    ensures Positive(Bump(h, v))
    decreases |h|
  {
    if |h| > 0 && KeyOf(h[0].0) != KeyOf(v) {
      BumpPositive(h[1..], v);
      assert Bump(h, v)[1..] == Bump(h[1..], v);
    }
  }

  /** Bumping introduces no key but `v`'s and keeps the keys distinct. */
  lemma {:induction false} BumpKeys(h: Histogram, v: Json)
    requires KeyOf(v).Some?
    ensures forall i :: 0 <= i < |Bump(h, v)| ==>
      KeyOf(Bump(h, v)[i].0) == KeyOf(v) || exists j :: 0 <= j < |h| && KeyOf(Bump(h, v)[i].0) == KeyOf(h[j].0)
    ensures Keyed(h) ==> Keyed(Bump(h, v))
    decreases |h|
  {
    var r := Bump(h, v);
    if |h| > 0 {
      if KeyOf(h[0].0) == KeyOf(v) {
        assert r[1..] == h[1..];
        assert forall i :: 1 <= i < |r| ==> r[i] == h[i];
        assert KeyOf(r[0].0) == KeyOf(h[0].0);
      } else {
        var rest := Bump(h[1..], v);
        BumpKeys(h[1..], v);
        assert r[1..] == rest;
        forall i | 0 <= i < |r|
          ensures KeyOf(r[i].0) == KeyOf(v) || exists j :: 0 <= j < |h| && KeyOf(r[i].0) == KeyOf(h[j].0)
        {
          if i > 0 && KeyOf(r[i].0) != KeyOf(v) {
            var j :| 0 <= j < |h[1..]| && KeyOf(rest[i - 1].0) == KeyOf(h[1..][j].0);
            assert KeyOf(r[i].0) == KeyOf(h[j + 1].0);
          } else if i == 0 {
            assert KeyOf(r[0].0) == KeyOf(h[0].0);
          }
        }
        if Keyed(h) {
          forall j | 1 <= j < |r|
            ensures KeyOf(r[0].0) != KeyOf(r[j].0)
          {
            if KeyOf(r[j].0) != KeyOf(v) {
              var m :| 0 <= m < |h[1..]| && KeyOf(rest[j - 1].0) == KeyOf(h[1..][m].0);
              assert KeyOf(r[j].0) == KeyOf(h[m + 1].0);
            }
          }
        }
      }
    }
  }

  /** How many matched rows have a match type equal to `k`. */
  function TypeCount(rows: seq<Row>, k: Key): nat
    decreases |rows|
  {
    if |rows| == 0 then 0
    else
      var n := |rows| - 1;
      TypeCount(rows[..n], k) + (if rows[n].isMatch && KeyOf(rows[n].matchType) == Some(k) then 1 else 0)
  }

  /** A matched row whose match type is a list or dict. */
  predicate Unhashable(row: Row) {
    row.isMatch && KeyOf(row.matchType).None?
  }

  /** The `match_types` loop over the results, in order. */
  function MatchTypes(rows: seq<Row>): Result<Histogram, ReportError>
    decreases |rows|
  {
    if |rows| == 0 then Ok([])
    else
      var n := |rows| - 1;
      match MatchTypes(rows[..n])
      case Err(e) => Err(e)
      case Ok(h) =>
        if !rows[n].isMatch then Ok(h)
        else if KeyOf(rows[n].matchType).None? then Err(UnhashableMatchType(rows[n].matchType))
        else Ok(Bump(h, rows[n].matchType))
  }

  /** The loop fails exactly when a matched result has an unhashable match
      type, and then on the first such; otherwise the dict has one entry per
      distinct match type, counting the matched results of that type, and
      its values add up to the number of matches; no count is zero. */
  lemma {:induction false} MatchTypesSpec(rows: seq<Row>)
    ensures MatchTypes(rows).Ok? <==> forall i :: 0 <= i < |rows| ==> !Unhashable(rows[i])
    ensures MatchTypes(rows).Err? ==>
      exists i :: && 0 <= i < |rows| && Unhashable(rows[i])
                  && MatchTypes(rows).error == UnhashableMatchType(rows[i].matchType)
                  && forall j :: 0 <= j < i ==> !Unhashable(rows[j])
    ensures MatchTypes(rows).Ok? ==>
      && Keyed(MatchTypes(rows).value)
      && Positive(MatchTypes(rows).value)
      && Total(MatchTypes(rows).value) == MatchedCount(rows)
      && forall k :: CountOf(MatchTypes(rows).value, k) == TypeCount(rows, k)
    decreases |rows|
  {
    if |rows| > 0 {
      var n := |rows| - 1;
      var front := rows[..n];
      MatchTypesSpec(front);
      assert forall i :: 0 <= i < n ==> front[i] == rows[i];
      if MatchTypes(front).Err? {
        var i :| && 0 <= i < n && Unhashable(front[i])
                 && MatchTypes(front).error == UnhashableMatchType(front[i].matchType)
                 && forall j :: 0 <= j < i ==> !Unhashable(front[j]);
        assert rows[i] == front[i];
      } else if rows[n].isMatch && !Unhashable(rows[n]) {
        BumpCounts(MatchTypes(front).value, rows[n].matchType);
        BumpKeys(MatchTypes(front).value, rows[n].matchType);
        BumpPositive(MatchTypes(front).value, rows[n].matchType);
      }
    }
  }

  /** The least positive int that `float()` refuses with `OverflowError`:
      halfway between the largest double, (2^53 - 1) * 2^971, and 2^1024,
      where round-half-to-even would give infinity: 2^1024 - 2^970. */
  const FloatOverflow: int := 0xFFFF_FFFF_FFFF_FC00_0000_0000_0000_0000_0000_0000_0000_0000_0000_0000_0000_0000_0000_0000_0000_0000_0000_0000_0000_0000_0000_0000_0000_0000_0000_0000_0000_0000_0000_0000_0000_0000_0000_0000_0000_0000_0000_0000_0000_0000_0000_0000_0000_0000_0000_0000_0000_0000_0000_0000_0000_0000_0000_0000_0000_0000_0000_0000_0000_0000

  /** `float(v)`, with `parse` standing for Python's parsing of a numeric
      string (`None` where it raises `ValueError`). */
  function ToFloat(v: Json, parse: string -> Option<real>): (r: Result<real, ReportError>)
    ensures r.Err? ==> r.error == NotANumber(v)
    ensures v.JNull? || v.JArr? || v.JObj? ==> r.Err?
    ensures v.JBool? || v.JFloat? ==> r.Ok? && Some(KNum(r.value)) == KeyOf(v)
    ensures v.JInt? ==> (r.Ok? <==> -FloatOverflow < v.i < FloatOverflow)
    ensures v.JInt? && r.Ok? ==> Some(KNum(r.value)) == KeyOf(v)
  {
    match v
    case JBool(b) => Ok(if b then 1.0 else 0.0)
    case JInt(i) => if -FloatOverflow < i < FloatOverflow then Ok(i as real) else Err(NotANumber(v))
    case JFloat(f) => Ok(f)
    case JStr(s) => (
      match parse(s)
      case Some(x) => Ok(x)
      case None => Err(NotANumber(v)))
    case _ => Err(NotANumber(v))
  }

  /** The `confidences` list: `float(r.get('confidence_score', 0))` for the
      matched results, in order. */
  function Confidences(rows: seq<Row>, parse: string -> Option<real>): Result<seq<real>, ReportError>
    decreases |rows|
  {
    if |rows| == 0 then Ok([])
    else
      var n := |rows| - 1;
      match Confidences(rows[..n], parse)
      case Err(e) => Err(e)
      case Ok(xs) =>
        if !rows[n].isMatch then Ok(xs)
        else
          match ToFloat(rows[n].score, parse)
          case Err(e) => Err(e)
          case Ok(x) => Ok(xs + [x])
  }

  /** The list holds one value per match, the float of that match's score,
      and is built exactly when every matched score converts. */
  lemma {:induction false} ConfidencesSpec(rows: seq<Row>, parse: string -> Option<real>)
    ensures Confidences(rows, parse).Ok? <==>
      forall i :: 0 <= i < |Matched(rows)| ==> ToFloat(Matched(rows)[i].score, parse).Ok?
    ensures Confidences(rows, parse).Ok? ==>
      var xs := Confidences(rows, parse).value;
      && |xs| == |Matched(rows)|
      && forall i :: 0 <= i < |xs| ==> ToFloat(Matched(rows)[i].score, parse) == Ok(xs[i])
    decreases |rows|
  {
    if |rows| > 0 {
      var n := |rows| - 1;
      ConfidencesSpec(rows[..n], parse);
      var m := Matched(rows[..n]);
      if rows[n].isMatch {
        var all := Matched(rows);
        assert all == m + [rows[n]];
        assert forall i :: 0 <= i < |m| ==> all[i] == m[i];
        assert all[|m|] == rows[n];
      } else {
        assert Matched(rows) == m;
      }
    }
  }

  /** `sum(xs)` over exact reals. */
  function Sum(xs: seq<real>): real {
    if |xs| == 0 then 0.0 else xs[0] + Sum(xs[1..])
  }

  /** `sum(xs) / len(xs) if xs else 0`. */
  function Average(xs: seq<real>): (a: real)
    ensures |xs| == 0 ==> a == 0.0
    ensures |xs| > 0 ==> a * |xs| as real == Sum(xs)
  {
    if |xs| == 0 then 0.0 else Sum(xs) / |xs| as real
  }

  /** Values within `[lo, hi]` sum to within `[n * lo, n * hi]`. */
  lemma {:induction false} SumWithin(xs: seq<real>, lo: real, hi: real)
    requires forall i :: 0 <= i < |xs| ==> lo <= xs[i] <= hi
    ensures |xs| as real * lo <= Sum(xs) <= |xs| as real * hi
    decreases |xs|
  {
    if |xs| > 0 {
      SumWithin(xs[1..], lo, hi);
      assert |xs| as real * lo == lo + (|xs| - 1) as real * lo;
      assert |xs| as real * hi == hi + (|xs| - 1) as real * hi;
    }
  }

  /** The mean of values within `[lo, hi]` lies within `[lo, hi]`. */
  lemma AverageWithin(xs: seq<real>, lo: real, hi: real)
    requires |xs| > 0
    requires forall i :: 0 <= i < |xs| ==> lo <= xs[i] <= hi
    ensures lo <= Average(xs) <= hi
  {
    SumWithin(xs, lo, hi);
  }

  /** `(matched / total * 100) if total > 0 else 0`. */
  function MatchRate(matched: nat, total: nat): (r: real)
    ensures total == 0 ==> r == 0.0
    ensures total > 0 ==> r * total as real == matched as real * 100.0
    ensures matched <= total ==> 0.0 <= r <= 100.0
  {
    if total > 0 then
      var r := matched as real / total as real * 100.0;
      assert matched as real / total as real <= 1.0 <== matched <= total;
      r
    else 0.0
  }

  /** The dict `generate_report` returns. */
  datatype Summary = Summary(
    totalProcessed: nat,
    matched: nat,
    unmatched: int,
    matchRate: real,
    matchTypes: Histogram,
    avgConfidence: real)

  /** `generate_report(results)`: the histogram loop runs before the
      confidence list is built, so an unhashable match type is reported
      before any unconvertible score. */
  function GenerateReport(rs: seq<Record>, parse: string -> Option<real>): (r: Result<Summary, ReportError>)
    ensures r.Ok? ==>
      && r.value.totalProcessed == |rs|
      && r.value.matched <= |rs|
      && r.value.unmatched == |rs| - r.value.matched
      && 0.0 <= r.value.matchRate <= 100.0
      && (|rs| == 0 ==> r.value.matchRate == 0.0)
      && (r.value.matched == 0 ==> r.value.avgConfidence == 0.0)
  {
    Summarize(Rows(rs), parse)
  }

  /** The report computed from the rows. */
  function Summarize(rows: seq<Row>, parse: string -> Option<real>): (r: Result<Summary, ReportError>)
    ensures r.Ok? ==>
      && r.value.totalProcessed == |rows|
      && r.value.matched <= |rows|
      && r.value.unmatched == |rows| - r.value.matched
      && 0.0 <= r.value.matchRate <= 100.0
      && (|rows| == 0 ==> r.value.matchRate == 0.0)
      && (r.value.matched == 0 ==> r.value.avgConfidence == 0.0)
  {
    var total := |rows|;
    var matched := MatchedCount(rows);
    match MatchTypes(rows)
    case Err(e) => Err(e)
    case Ok(types) =>
      match Confidences(rows, parse)
      case Err(e) => Err(e)
      case Ok(xs) =>
        ConfidencesCount(rows, parse, xs);
        Ok(Summary(total, matched, total - matched, MatchRate(matched, total), types, Average(xs)))
  }

  /** The report is produced exactly when every match has a hashable type
      and a convertible score, and an unhashable type wins over a bad
      score. */
  lemma ReportErrors(rows: seq<Row>, parse: string -> Option<real>)
    ensures Summarize(rows, parse).Ok? <==>
      && (forall i :: 0 <= i < |rows| ==> !Unhashable(rows[i]))
      && (forall i :: 0 <= i < |Matched(rows)| ==> ToFloat(Matched(rows)[i].score, parse).Ok?)
    ensures (exists i :: 0 <= i < |rows| && Unhashable(rows[i])) ==>
      Summarize(rows, parse).Err? && Summarize(rows, parse).error.UnhashableMatchType?
  {
    MatchTypesSpec(rows);
    ConfidencesSpec(rows, parse);
  }

  /** The histogram holds one entry per match type among the matches,
      never a zero count, counts each type's matches and sums to the
      number of matches. */
  lemma ReportHistogram(rows: seq<Row>, parse: string -> Option<real>)
    requires Summarize(rows, parse).Ok?
    ensures var s := Summarize(rows, parse).value;
      && s.matched == MatchedCount(rows)
      && Keyed(s.matchTypes)
      && Positive(s.matchTypes)
      && Total(s.matchTypes) == s.matched
      && (forall k :: CountOf(s.matchTypes, k) == TypeCount(rows, k))
  {
    MatchTypesSpec(rows);
  }

  /** The average confidence times the number of matches is the sum of the
      matches' scores. */
  lemma ReportAverage(rows: seq<Row>, parse: string -> Option<real>, s: Summary, xs: seq<real>)
    requires Summarize(rows, parse) == Ok(s) && Confidences(rows, parse) == Ok(xs)
    ensures s.avgConfidence * s.matched as real == Sum(xs)
  {
    SummarizeAverage(rows, parse, s, xs);
    ConfidencesCount(rows, parse, xs);
    AverageTimesCount(xs, s.avgConfidence, s.matched);
  }

  /** The summary's mean is the mean of the confidences. */
  lemma SummarizeAverage(rows: seq<Row>, parse: string -> Option<real>, s: Summary, xs: seq<real>)
    requires Summarize(rows, parse) == Ok(s) && Confidences(rows, parse) == Ok(xs)
    ensures s.avgConfidence == Average(xs) && s.matched == MatchedCount(rows)
  {
  }

  /** One confidence per matched row. */
  lemma {:induction false} ConfidencesCount(rows: seq<Row>, parse: string -> Option<real>, xs: seq<real>)
    requires Confidences(rows, parse) == Ok(xs)
    ensures |xs| == MatchedCount(rows)
    decreases |rows|
  {
    if |rows| > 0 {
      var n := |rows| - 1;
      ConfidencesCount(rows[..n], parse, Confidences(rows[..n], parse).value);
    }
  }

  /** When every matched score converts to a value within `[lo, hi]` and
      something matched, the reported average lies within `[lo, hi]` too. */
  lemma ReportAverageWithin(rows: seq<Row>, parse: string -> Option<real>, s: Summary, xs: seq<real>, lo: real, hi: real)
    requires Summarize(rows, parse) == Ok(s) && Confidences(rows, parse) == Ok(xs)
    requires s.matched > 0
    requires forall i :: 0 <= i < |xs| ==> lo <= xs[i] <= hi
    ensures lo <= s.avgConfidence <= hi
  {
    SummarizeAverage(rows, parse, s, xs);
    ConfidencesCount(rows, parse, xs);
    AverageWithin(xs, lo, hi);
  }

  /** The mean times the count is the sum. */
  lemma AverageTimesCount(xs: seq<real>, a: real, n: nat)
    requires a == Average(xs) && n == |xs|
    ensures a * n as real == Sum(xs)
  {
    if n == 0 {
      assert Sum(xs) == 0.0;
    }
  }
}
